=== FILE: README.md ===
# Twitter backend core in Dafny

This project models the domain core of the Express/Prisma Twitter-style backend:

- the services and repositories for users, posts, comments, follows, reactions and direct messages;
- the request guards in front of them: the `Authorization: Bearer <token>` check and the image-extension check;
- the object-storage façade that signs image URLs.

**The store.** The database is one `Database` class (module `Store`) holding five tables:

- users, posts and reactions are sequences of rows;
- follows is a set of (follower, followed) pairs;
- messages is a sequence of rows.

`Database.Valid()` holds three invariants:

- user ids are unique;
- post ids are unique;
- every post's author exists.

**Reads and writes.** Each repository read (a Prisma query) is a pure function over the table values. Each write is a method whose `modifies` clause names the one table it changes. A method says how it fails:

- Prisma's `update`/`delete` on a missing row is `RecordNotFound`;
- an insert whose author row is missing is `ForeignKeyViolation`;
- the services' own errors are `NotFound`, `Forbidden`, `Conflict` and `Unauthorized`, with the codes the services use.

**Parameters.** Anything the code reads from outside is a parameter:

- the clock (`Date.now()`), given as a function from an image's index to the reading taken while building its key;
- the ids and timestamps the database assigns;
- the URL signer, which is an uninterpreted function fixed when a `BucketManager` is built.

The signer remembers, as ghost state, the keys it was asked to sign. This lets contracts state which URLs a service produces, how many, and in what order.

**JavaScript truthiness.** It is modelled where the code relies on it. An empty string is falsy: an empty cursor or an empty profile-picture key counts as absent. A zero limit or skip also counts as absent.

## Model

| member | source | states |
|---|---|---|
| Auth.BearerToken | node/express-prisma-typescript/src/utils/auth.ts:16-18 | a header that is missing, whose first field is not exactly `Bearer`, or whose second field is missing or empty, is refused with MISSING_TOKEN; a token is only produced from a present header |
| Auth.BearerTokenIffShape | node/express-prisma-typescript/src/utils/auth.ts:16-18 | the shape check yields token t exactly when the header is `Bearer`, one space, the non-empty space-free t, then the end or a space |
| Auth.BearerTokenHasShape | node/express-prisma-typescript/src/utils/auth.ts:16-18 | every accepted header has the Bearer shape around the token it yields |
| Auth.ShapeGivesBearerToken | node/express-prisma-typescript/src/utils/auth.ts:16-18 | every header of the Bearer shape is accepted with its token |
| Auth.ExtraFieldsIgnored | node/express-prisma-typescript/src/utils/auth.ts:16 | only the first two space-separated fields are read; anything after the token is ignored |
| Auth.SchemeMustBeBearer | node/express-prisma-typescript/src/utils/auth.ts:18 | a header not starting with `Bearer ` (e.g. another letter case) is refused |
| Auth.MissingHeaderRefused | node/express-prisma-typescript/src/utils/auth.ts:16-18 | no header at all is refused with MISSING_TOKEN |
| Auth.SchemeAloneRefused | node/express-prisma-typescript/src/utils/auth.ts:16-18 | `Bearer` with no token field is refused |
| Auth.EmptyTokenFieldRefused | node/express-prisma-typescript/src/utils/auth.ts:16-18 | two spaces after the scheme give an empty token field, refused whatever follows |
| Auth.WithAuth | node/express-prisma-typescript/src/utils/auth.ts:14-26 | a bad shape gives MISSING_TOKEN; otherwise the request passes exactly when the token verifies, with the verified context, and fails with INVALID_TOKEN when it does not |
| Auth.BadShapeNeverVerifies | node/express-prisma-typescript/src/utils/auth.ts:18-21 | a badly shaped header is refused before verification: the outcome does not depend on the verifier |
| Bucket.BucketManager.constructor | node/express-prisma-typescript/src/utils/s3bucket.ts:5-6 | a new façade signs with the given signers and has signed nothing yet |
| Bucket.BucketManager.GetImage | node/express-prisma-typescript/src/utils/s3bucket.ts:18-25 | returns the read URL of the key and records one read signing of that key |
| Bucket.BucketManager.PutImage | node/express-prisma-typescript/src/utils/s3bucket.ts:8-16 | returns the upload URL of the key and records one upload signing of that key |
| Bucket.SignAll | node/express-prisma-typescript/src/domains/post/service/post.service.impl.ts:23-31 | one URL per key, in order: the i-th URL is the signature of the i-th key |
| Bucket.PictureKeys | node/express-prisma-typescript/src/domains/user/service/user.service.impl.ts:33 | a picture costs one signing when its key is non-empty and none otherwise |
| Bucket.ResolvePicture | node/express-prisma-typescript/src/domains/user/service/user.service.impl.ts:33 | a non-empty key becomes its read URL (one signing), an empty or missing one becomes null (no signing) |
| Validation.LowerEndsWithDot | node/express-prisma-typescript/src/utils/validation.ts:23 | a case-insensitive `.e` suffix is exactly a dot at that position followed by e in any letter case |
| Validation.AllowedSuffixHasDot | node/express-prisma-typescript/src/utils/validation.ts:23 | each allowed suffix ends the name with a dot and an allowed extension |
| Validation.DotExtensionIsAllowed | node/express-prisma-typescript/src/utils/validation.ts:23 | a dot followed to the end by jpg, jpeg or png in any case passes the pattern |
| Validation.AllowedHasDotExtension | node/express-prisma-typescript/src/utils/validation.ts:23 | a name passing the pattern has such a dot |
| Validation.ExtensionAllowedMeansDotExtension | node/express-prisma-typescript/src/utils/validation.ts:23 | the check reads as the case-insensitive pattern: some dot is followed, up to the end of the name, by jpg, jpeg or png; both directions |
| Validation.ExtensionExamples | node/express-prisma-typescript/src/utils/validation.ts:23 | `x.png.exe` and `png` are refused; `photo.PNG` and `a.JpEg` pass |
| Validation.ImagesExtensionValidation | node/express-prisma-typescript/src/utils/validation.ts:21-30 | a body without images passes; otherwise it passes exactly when every name has an allowed extension, and fails with the `images` validation error |
| Validation.CheckEach | node/express-prisma-typescript/src/utils/validation.ts:24-28 | the loop passes exactly when every name is allowed |
| Validation.OneBadNameRefuses | node/express-prisma-typescript/src/utils/validation.ts:24-28 | a single refused name anywhere in the list refuses the request |
| Pagination.FindManyCursorArgs | node/express-prisma-typescript/src/domains/user/repository/user.repository.impl.ts:145-147 | the cursor is a non-empty `after`, else a non-empty `before`; the cursor row is skipped exactly when `after ?? before` is non-empty; a non-zero limit is taken, negated when `before` is non-empty |
| Pagination.SkipOnlyWithCursor | node/express-prisma-typescript/src/domains/post/repository/post.repository.impl.ts:27-28 | a skip is never requested without a cursor |
| Pagination.AfterAndBefore | node/express-prisma-typescript/src/domains/post/repository/post.repository.impl.ts:27-29 | with both `after` and `before`, the cursor is `after` but the page is read backwards |
| Pagination.EmptyAfterKeepsCursorRow | node/express-prisma-typescript/src/domains/post/repository/post.repository.impl.ts:27-28 | an empty `after` beside a real `before` sets the cursor without skipping its row |
| Pagination.FindManyOffsetArgs | node/express-prisma-typescript/src/domains/user/repository/user.repository.impl.ts:55-56 | limit and skip are passed on exactly when they are non-zero numbers |
| FollowRepository.CheckFollow | node/express-prisma-typescript/src/domains/follow/repository/follow.repository.impl.ts:7-15 | true exactly when a row with that follower and that followed user exists |
| FollowRepository.FollowUser | node/express-prisma-typescript/src/domains/follow/repository/follow.repository.impl.ts:17-24 | the relation gains the pair and nothing else changes |
| FollowRepository.UnfollowUser | node/express-prisma-typescript/src/domains/follow/repository/follow.repository.impl.ts:26-33 | the relation loses the pair (a no-op when absent) and nothing else changes |
| FollowRepository.CheckAfterWrite | node/express-prisma-typescript/src/domains/follow/repository/follow.repository.impl.ts:7-33 | after an insert the check holds, after a delete it fails |
| FollowRepository.FollowIsDirected | node/express-prisma-typescript/src/domains/follow/repository/follow.repository.impl.ts:7-15 | u following v does not make v follow u |
| FollowRepository.UnfollowKeepsOthers | node/express-prisma-typescript/src/domains/follow/repository/follow.repository.impl.ts:26-33 | deleting one pair leaves every other pair's check unchanged |
| FollowService.FollowUser | node/express-prisma-typescript/src/domains/follow/service/follow.service.impl.ts:8-16 | fails with USER_ALREADY_FOLLOWED exactly when the pair exists, changing nothing; otherwise inserts it |
| FollowService.UnfollowUser | node/express-prisma-typescript/src/domains/follow/service/follow.service.impl.ts:18-26 | fails with USER_NOT_FOLLOWED exactly when the pair is absent, changing nothing; otherwise removes it |
| FollowService.FollowThenUnfollow | node/express-prisma-typescript/src/domains/follow/service/follow.service.impl.ts:8-26 | a successful follow followed by an unfollow succeeds and restores the relation |
| FollowService.FollowSelf | node/express-prisma-typescript/src/domains/follow/service/follow.service.impl.ts:8-16 | nothing stops a user from following themselves |
| ReactionRepository.Without | node/express-prisma-typescript/src/domains/reaction/repository/reaction.repository.impl.ts:30-48 | `deleteMany` leaves no matching row and every other row as often as before |
| ReactionRepository.CheckLike | node/express-prisma-typescript/src/domains/reaction/repository/reaction.repository.impl.ts:50-60 | true exactly when that user's LIKE row on that post exists |
| ReactionRepository.CheckRetweet | node/express-prisma-typescript/src/domains/reaction/repository/reaction.repository.impl.ts:62-72 | true exactly when that user's RETWEET row on that post exists |
| ReactionRepository.Like | node/express-prisma-typescript/src/domains/reaction/repository/reaction.repository.impl.ts:10-18 | appends one LIKE row |
| ReactionRepository.Retweet | node/express-prisma-typescript/src/domains/reaction/repository/reaction.repository.impl.ts:20-28 | appends one RETWEET row |
| ReactionRepository.Unretweet | node/express-prisma-typescript/src/domains/reaction/repository/reaction.repository.impl.ts:30-38 | removes that user's RETWEET rows on that post |
| ReactionRepository.Dislike | node/express-prisma-typescript/src/domains/reaction/repository/reaction.repository.impl.ts:40-48 | removes that user's LIKE rows on that post |
| ReactionRepository.DislikeKeepsOtherRows | node/express-prisma-typescript/src/domains/reaction/repository/reaction.repository.impl.ts:40-48 | a dislike keeps retweets and other users' and posts' rows |
| ReactionRepository.UnretweetKeepsLikes | node/express-prisma-typescript/src/domains/reaction/repository/reaction.repository.impl.ts:30-38 | an unretweet keeps the user's likes |
| ReactionService.Like | node/express-prisma-typescript/src/domains/reaction/service/reaction.service.impl.ts:8-16 | ALREADY_LIKED exactly when a LIKE row exists, changing nothing; otherwise one LIKE row is added |
| ReactionService.Retweet | node/express-prisma-typescript/src/domains/reaction/service/reaction.service.impl.ts:18-26 | ALREADY_RETWEETED exactly when a LIKE row exists (the code checks likes); otherwise one RETWEET row is added |
| ReactionService.Unretweet | node/express-prisma-typescript/src/domains/reaction/service/reaction.service.impl.ts:28-36 | NOT_RETWEETED exactly when no LIKE row exists; otherwise the RETWEET rows are removed |
| ReactionService.Dislike | node/express-prisma-typescript/src/domains/reaction/service/reaction.service.impl.ts:38-46 | NOT_LIKED exactly when no LIKE row exists; otherwise the LIKE rows are removed |
| ReactionService.LikeTwice | node/express-prisma-typescript/src/domains/reaction/service/reaction.service.impl.ts:8-16 | a second like in a row is refused and the like stays |
| ReactionService.RetweetTwice | node/express-prisma-typescript/src/domains/reaction/service/reaction.service.impl.ts:18-26 | without a like, retweeting twice succeeds twice and leaves two more RETWEET rows |
| ReactionService.UnretweetWithoutLike | node/express-prisma-typescript/src/domains/reaction/service/reaction.service.impl.ts:28-36 | a real retweet cannot be undone unless the user also likes the post |
| ReactionService.LikeCountsOneMore | node/express-prisma-typescript/src/domains/reaction/service/reaction.service.impl.ts:8-16 | after a like on a post, that post's like count is one higher and every other count of every post is unchanged |
| ReactionService.RetweetCountsOneMore | node/express-prisma-typescript/src/domains/reaction/service/reaction.service.impl.ts:18-26 | after a retweet on a post, that post's retweet count is one higher and every other count of every post is unchanged |
| ReactionService.DislikeDropsUsersLikes | node/express-prisma-typescript/src/domains/reaction/service/reaction.service.impl.ts:38-46 | after a dislike, the post's like count drops by that user's likes on it and every other count of every post is unchanged |
| ReactionService.UnretweetDropsUsersRetweets | node/express-prisma-typescript/src/domains/reaction/service/reaction.service.impl.ts:28-36 | after an unretweet, the post's retweet count drops by that user's retweets on it and every other count of every post is unchanged |
| MessageRepository.GetMessageHistory | node/express-prisma-typescript/src/domains/message/repository/message.repository.impl.ts:8-28 | the messages between the two users in either direction, each as often as stored, ordered oldest first |
| MessageRepository.Create | node/express-prisma-typescript/src/domains/message/repository/message.repository.impl.ts:30-37 | stores the message from the sender to the body's receiver and it shows in their history |
| MessageRepository.HistorySymmetric | node/express-prisma-typescript/src/domains/message/repository/message.repository.impl.ts:10-21 | both participants see the same conversation in the same order |
| MessageRepository.HistoryMembership | node/express-prisma-typescript/src/domains/message/repository/message.repository.impl.ts:10-21 | a message is in a history exactly when it is stored and sent between those two users |
| MessageRepository.CreatedMessageInHistory | node/express-prisma-typescript/src/domains/message/repository/message.repository.impl.ts:30-37 | an appended message is in its sender's history with its receiver |
| SocketService.CheckFollows | node/express-prisma-typescript/src/domains/socket/service/socket.service.impl.ts:11-16 | true exactly when each user follows the other |
| SocketService.CheckFollowsSymmetric | node/express-prisma-typescript/src/domains/socket/service/socket.service.impl.ts:11-16 | the order of the two users does not matter |
| SocketService.OneWayFollowRefused | node/express-prisma-typescript/src/domains/socket/service/socket.service.impl.ts:11-16 | a follow in one direction only is not enough |
| SocketService.CreateMessage | node/express-prisma-typescript/src/domains/socket/service/socket.service.impl.ts:18-20 | stores exactly the message the repository builds |
| CommentRepository.CommentPost | node/express-prisma-typescript/src/domains/comment/repository/comment.repository.impl.ts:10-20 | stores a COMMENT with the given parent, content and image names as given; refused with ForeignKeyViolation for an unknown user; the comment is then among the user's comments |
| CommentRepository.GetCommentsByUser | node/express-prisma-typescript/src/domains/comment/repository/comment.repository.impl.ts:22-31 | exactly the stored rows of kind COMMENT by that user |
| CommentRepository.CommentCountsForParent | node/express-prisma-typescript/src/domains/post/repository/post.repository.impl.ts:85 | a new comment raises its parent's comment count by one |
| PostRepository.ImageKey | node/express-prisma-typescript/src/domains/post/repository/post.repository.impl.ts:18 | every image key lies in the author's `postImages/<userId>/` folder and ends with the image name |
| PostRepository.ImageKeys | node/express-prisma-typescript/src/domains/post/repository/post.repository.impl.ts:18 | no keys without an image list; otherwise one key per image, in order, each in the author's folder and ending with that image's name |
| PostRepository.ImageKeyInjective | node/express-prisma-typescript/src/domains/post/repository/post.repository.impl.ts:18 | for clock readings of one digit count and names not starting with a digit, a key determines its reading, its index and its name |
| PostRepository.ImageKeysDistinct | node/express-prisma-typescript/src/domains/post/repository/post.repository.impl.ts:18 | the keys of one post are pairwise distinct when no name starts with a digit and every reading has the same number of digits |
| PostRepository.ImageKeysCanCollide | node/express-prisma-typescript/src/domains/post/repository/post.repository.impl.ts:18 | at one clock reading, image 1 named `0cat.png` and image 10 named `cat.png` get the same key |
| PostRepository.ImageKeysCollideInOnePost | node/express-prisma-typescript/src/domains/post/repository/post.repository.impl.ts:18 | so a post with those two images stores one key twice when the clock does not tick between them |
| PostRepository.Create | node/express-prisma-typescript/src/domains/post/repository/post.repository.impl.ts:12-23 | stores a top-level POST by the user with one key per image, each built from its own clock reading; ForeignKeyViolation for an unknown user; the store stays valid |
| PostRepository.KindOfPostReactions | node/express-prisma-typescript/src/domains/post/repository/post.repository.impl.ts:83-84 | counting the post's reactions by type counts the table's rows of that type on the post |
| PostRepository.Extend | node/express-prisma-typescript/src/domains/post/repository/post.repository.impl.ts:82-86 | the post keeps its row; its author is the public view of the author's row (the only one under unique ids); its reactions hold each table row on the post as often as stored and nothing else; `qtyLikes` and `qtyRetweets` are the numbers of LIKE and RETWEET rows on the post, adding up to its reactions; `qtyComments` is the number of its comments |
| PostRepository.ExtendAll | node/express-prisma-typescript/src/domains/post/repository/post.repository.impl.ts:82-87 | one extended post per selected row, in order: the i-th is the i-th row extended |
| PostRepository.FeedOrderIsTotal | node/express-prisma-typescript/src/domains/post/repository/post.repository.impl.ts:30-37 | newest first, then by id, is a total order |
| PostRepository.FeedPosts | node/express-prisma-typescript/src/domains/post/repository/post.repository.impl.ts:30-77 | the rows the feed's `where` accepts, each as often as stored, newest first and by id among equal stamps |
| PostRepository.GetAllByDatePaginated | node/express-prisma-typescript/src/domains/post/repository/post.repository.impl.ts:25-88 | the cursor arguments derived from the options; the i-th row is the i-th feed row extended, each feed row being a stored post |
| PostRepository.FeedMembership | node/express-prisma-typescript/src/domains/post/repository/post.repository.impl.ts:50-77 | a post is in the feed exactly when it is stored and accepted by the `where` clause |
| PostRepository.FeedHasNoComments | node/express-prisma-typescript/src/domains/post/repository/post.repository.impl.ts:50-77 | comments never reach the feed |
| PostRepository.WithoutPost | node/express-prisma-typescript/src/domains/post/repository/post.repository.impl.ts:90-96 | no row with that id remains, and every other row is kept as often as before |
| PostRepository.WithoutPostKeepsValid | node/express-prisma-typescript/src/domains/post/repository/post.repository.impl.ts:90-96 | removing a row keeps ids unique and every remaining post's author |
| PostRepository.Delete | node/express-prisma-typescript/src/domains/post/repository/post.repository.impl.ts:90-96 | RecordNotFound exactly when no post has the id, changing nothing; otherwise the row is removed and the store stays valid |
| PostRepository.DeleteRemovesOneRow | node/express-prisma-typescript/src/domains/post/repository/post.repository.impl.ts:90-96 | with unique ids, deleting a stored post removes exactly one row |
| PostRepository.OnlyRowWithId | node/express-prisma-typescript/src/domains/post/repository/post.repository.impl.ts:90-96 | a row alone in carrying its id is the only row selected by that id |
| PostRepository.NoRowWithId | node/express-prisma-typescript/src/domains/post/repository/post.repository.impl.ts:90-96 | no row carrying the id selects nothing |
| PostRepository.GetById | node/express-prisma-typescript/src/domains/post/repository/post.repository.impl.ts:98-125 | null exactly when no post has the id; otherwise the stored post with that id, extended |
| PostRepository.ByAuthor | node/express-prisma-typescript/src/domains/post/repository/post.repository.impl.ts:127-153 | exactly the stored rows by that author, of either kind |
| PostRepository.GetByAuthorId | node/express-prisma-typescript/src/domains/post/repository/post.repository.impl.ts:127-153 | the i-th row is the author's i-th post in table order, extended |
| PostService.ValidateAuthor | node/express-prisma-typescript/src/domains/post/service/post.service.impl.ts:16-21 | access is granted exactly when the author is not private, or the user follows the author, or is the author |
| PostService.ValidateAuthorIsFeedFilter | node/express-prisma-typescript/src/domains/post/service/post.service.impl.ts:16-21 | for an existing author, the feed's `where` is the access check restricted to top-level posts |
| PostService.FeedIsVisiblePosts | node/express-prisma-typescript/src/domains/post/service/post.service.impl.ts:61-71 | over a valid store the feed holds exactly the visible top-level posts |
| PostService.UnknownAuthorDiffers | node/express-prisma-typescript/src/domains/post/service/post.service.impl.ts:16-21 | for an author with no user row the check lets anyone in, while the feed shows the posts to nobody but the author |
| PostService.GetImagesUrls | node/express-prisma-typescript/src/domains/post/service/post.service.impl.ts:28-31 | one read URL per key, in order, each key signed once |
| PostService.GeneratePutImagesUrls | node/express-prisma-typescript/src/domains/post/service/post.service.impl.ts:23-26 | one upload URL per key, in order, each key signed once |
| PostService.CreatePost | node/express-prisma-typescript/src/domains/post/service/post.service.impl.ts:33-39 | the stored post keeps its keys while the returned post carries their upload URLs; an unknown user stores and signs nothing |
| PostService.DeletePost | node/express-prisma-typescript/src/domains/post/service/post.service.impl.ts:41-46 | NotFound exactly when the post is missing, Forbidden exactly when it has another author, either failure changing nothing; otherwise the row is removed |
| PostService.DeleteOwnPost | node/express-prisma-typescript/src/domains/post/service/post.service.impl.ts:41-46 | the author deleting a stored post removes exactly that row and keeps every other |
| PostService.GetPost | node/express-prisma-typescript/src/domains/post/service/post.service.impl.ts:48-59 | a missing or invisible post gives NotFound (never Forbidden) and signs nothing; otherwise the post with read URLs for its images |
| PostService.FeedImageKeysCount | node/express-prisma-typescript/src/domains/post/service/post.service.impl.ts:65-68 | a listing signs one URL per image plus one per post whose author has a non-empty picture |
| PostService.FeedImageKeysStep | node/express-prisma-typescript/src/domains/post/service/post.service.impl.ts:65-68 | each further post signs its images and then its author's picture key, after the keys of the posts before it |
| PostService.ResolvedPostsKeepRows | node/express-prisma-typescript/src/domains/post/service/post.service.impl.ts:65-68 | resolving keeps length, order, counts and every field but the image URLs and author picture; a picture is signed exactly when its key is non-empty |
| PostService.ResolvePost | node/express-prisma-typescript/src/domains/post/service/post.service.impl.ts:66-67 | one loop turn: a post's image URLs, then its author's picture |
| PostService.ResolvePosts | node/express-prisma-typescript/src/domains/post/service/post.service.impl.ts:65-68 | the loop rewrites every post of the list, signing its keys in list order |
| PostService.GetLatestPosts | node/express-prisma-typescript/src/domains/post/service/post.service.impl.ts:61-71 | the feed rows with URLs resolved |
| PostService.GetPostsByAuthor | node/express-prisma-typescript/src/domains/post/service/post.service.impl.ts:73-86 | NotFound exactly when access is refused, before anything is signed; otherwise the author's rows with URLs resolved |
| UserRepository.GetById | node/express-prisma-typescript/src/domains/user/repository/user.repository.impl.ts:23-30 | null exactly when no user has the id; otherwise the public view of a stored user with that id |
| UserRepository.IsPrivateUser | node/express-prisma-typescript/src/domains/user/repository/user.repository.impl.ts:92-103 | false for an unknown user; with unique ids, exactly the user's flag |
| UserRepository.SetPrivate | node/express-prisma-typescript/src/domains/user/repository/user.repository.impl.ts:105-125 | only the flag of that user's row changes, to the new value |
| UserRepository.SetProfilePicture | node/express-prisma-typescript/src/domains/user/repository/user.repository.impl.ts:127-141 | only the picture of that user's row changes, to the new key |
| UserRepository.SameIdsKeepValid | node/express-prisma-typescript/src/domains/user/repository/user.repository.impl.ts:105-141 | updates that keep ids keep the store valid |
| UserRepository.IsPrivateAfterSet | node/express-prisma-typescript/src/domains/user/repository/user.repository.impl.ts:92-125 | after the update the user's flag reads the new value and every other user's flag is unchanged |
| UserRepository.SetPrivateIdempotent | node/express-prisma-typescript/src/domains/user/repository/user.repository.impl.ts:105-114 | setting the flag twice is setting it once |
| UserRepository.PrivateUser | node/express-prisma-typescript/src/domains/user/repository/user.repository.impl.ts:105-114 | RecordNotFound exactly for an unknown user, changing nothing; otherwise the user becomes private |
| UserRepository.UnprivateUser | node/express-prisma-typescript/src/domains/user/repository/user.repository.impl.ts:116-125 | RecordNotFound exactly for an unknown user, changing nothing; otherwise the user becomes public |
| UserRepository.ProfileKey | node/express-prisma-typescript/src/domains/user/repository/user.repository.impl.ts:133 | the key lies under `profile/<userId>.` and ends with the extension |
| UserRepository.ProfileKeyInjective | node/express-prisma-typescript/src/domains/user/repository/user.repository.impl.ts:133 | for one user the key determines the extension |
| UserRepository.UpdateProfilePicture | node/express-prisma-typescript/src/domains/user/repository/user.repository.impl.ts:127-141 | RecordNotFound for an unknown user; otherwise the key is stored as the user's picture and returned |
| UserRepository.StoredPictureIsKey | node/express-prisma-typescript/src/domains/user/repository/user.repository.impl.ts:127-141 | after the update the user's view carries the stored key |
| UserRepository.IdAscendingIsTotal | node/express-prisma-typescript/src/domains/user/repository/user.repository.impl.ts:57-61 | ordering by id is a total order |
| UserRepository.RecommendedUsers | node/express-prisma-typescript/src/domains/user/repository/user.repository.impl.ts:40-71 | the users followed by someone the user follows, each as often as stored, by ascending id |
| UserRepository.Views | node/express-prisma-typescript/src/domains/user/repository/user.repository.impl.ts:73 | one view per row, in order: the i-th is the public view (id, name, username, picture) of the i-th user |
| UserRepository.RecommendedMembership | node/express-prisma-typescript/src/domains/user/repository/user.repository.impl.ts:40-71 | a user is listed exactly when it is stored and followed by someone the requester follows |
| UserRepository.RecommendedViewsSorted | node/express-prisma-typescript/src/domains/user/repository/user.repository.impl.ts:57-61 | the listing's views are sorted by id |
| UserRepository.RecommendedViewsComplete | node/express-prisma-typescript/src/domains/user/repository/user.repository.impl.ts:62-70 | every recommended user is listed |
| UserRepository.RecommendedViewsSound | node/express-prisma-typescript/src/domains/user/repository/user.repository.impl.ts:62-70 | every listed view is that of a recommended user |
| UserRepository.RecommendedViews | node/express-prisma-typescript/src/domains/user/repository/user.repository.impl.ts:40-74 | the listing's views are id-sorted, include every recommended user and nobody else |
| UserRepository.GetRecommendedUsersPaginated | node/express-prisma-typescript/src/domains/user/repository/user.repository.impl.ts:40-74 | the offset arguments from the options, and rows sorted by id holding exactly the recommended users |
| UserRepository.UsernameMatches | node/express-prisma-typescript/src/domains/user/repository/user.repository.impl.ts:148-152 | exactly the stored users whose username contains the query |
| UserRepository.UsernameMatchesKeepsIdsUnique | node/express-prisma-typescript/src/domains/user/repository/user.repository.impl.ts:143-156 | the users a search selects keep the table's unique ids |
| UserRepository.GetByUsernamePaginated | node/express-prisma-typescript/src/domains/user/repository/user.repository.impl.ts:143-156 | the cursor arguments from the options; every row is the view of a stored user whose username contains the query, and every such user is listed; with unique user ids no user is listed twice |
| UserService.GetLoggedUser | node/express-prisma-typescript/src/domains/user/service/user.service.impl.ts:16-27 | NotFound exactly for an unknown user; otherwise its view with a non-empty picture key replaced by its URL (anything else kept as stored) and its follow list |
| UserService.GetUser | node/express-prisma-typescript/src/domains/user/service/user.service.impl.ts:29-39 | NotFound exactly for an unknown user; otherwise its view with the picture resolved, `followsYou` exactly when it follows the viewer and `following` exactly when the viewer follows it |
| UserService.ViewFollowedUser | node/express-prisma-typescript/src/domains/user/service/user.service.impl.ts:35-36 | the two follow flags tell the directions apart |
| UserService.AllPictureKeysCount | node/express-prisma-typescript/src/domains/user/service/user.service.impl.ts:45-47 | a listing signs one URL per user with a non-empty picture key |
| UserService.ResolveUsers | node/express-prisma-typescript/src/domains/user/service/user.service.impl.ts:45-47 | the loop resolves every user's picture in order, signing the non-empty keys in list order |
| UserService.WithoutSelf | node/express-prisma-typescript/src/domains/user/service/user.service.impl.ts:49 | exactly the listed users other than the requester |
| UserService.WithoutSelfKeepsOthers | node/express-prisma-typescript/src/domains/user/service/user.service.impl.ts:49 | a listing without the requester comes back whole and in order |
| UserService.WithoutSelfConcat | node/express-prisma-typescript/src/domains/user/service/user.service.impl.ts:49 | dropping the requester from two listings laid end to end drops it from each, so the remaining users keep their order |
| UserService.WithoutSelfOne | node/express-prisma-typescript/src/domains/user/service/user.service.impl.ts:49 | a single user is kept exactly when it is not the requester |
| UserService.GetUserRecommendations | node/express-prisma-typescript/src/domains/user/service/user.service.impl.ts:41-50 | the recommendation listing with pictures resolved and the requester removed |
| UserService.GetUsersByUsername | node/express-prisma-typescript/src/domains/user/service/user.service.impl.ts:70-78 | the username search with pictures resolved, in the same order: every row is a stored matching user's view with its picture resolved |
| UserService.PrivateUser | node/express-prisma-typescript/src/domains/user/service/user.service.impl.ts:56-58 | the user becomes private, or RecordNotFound for an unknown user |
| UserService.UnprivateUser | node/express-prisma-typescript/src/domains/user/service/user.service.impl.ts:60-62 | the user becomes public, or RecordNotFound for an unknown user |
| UserService.UpdateProfilePicture | node/express-prisma-typescript/src/domains/user/service/user.service.impl.ts:64-68 | stores `profile/<userId>.<extension>` and returns the upload URL of that same key, signed once; nothing is signed for an unknown user |

## Left out

- Controllers, routing, HTTP status codes and the Swagger documentation are not modelled. The services are called directly.
- Signing JSON Web Tokens, hashing passwords with bcrypt, and sign-up and login (`auth.service`, user create, delete and `getByEmailOrUsername`) are outside the core and not modelled. Token verification is a parameter of `WithAuth`.
- The socket server and `socketAuth`: connection handling is I/O. The mutual-follow check and the message insert it uses are modelled.
- `BodyValidation`, class-validator's field rules, are not modelled. Only the image-extension check is.
- Presigned URLs are uninterpreted functions of the key. The bucket name, content type and expiry are not modelled.
- The comment and message services only pass calls through to their repositories, so only the repositories are modelled.
- What Prisma cuts from the ordered rows for a cursor, skip and take (including a negative take) is not modelled. Each listing gives the arguments it passes and the full ordered row set. The services resolve URLs over that full set.
- A `limit` or `skip` that is NaN or fractional is not modelled. Only absent, zero and integer values are.
- Unordered queries (`getByAuthorId`, the username search, `getCommentsByUser`) are returned in table order. The database's actual order is unspecified. Messages with equal `createdAt` likewise come back in table order; the database's order among them is unspecified.
- Ordering by id compares the ids' characters by code point. The database collation is not modelled.
- The user's `following` list in `getLoggedUser` is a parameter. The follow repository has no `getFollowing` operation for the service to call.
- The parent-post foreign key of comments is not modelled: a comment on a missing post is stored. Cascading deletes of a post's reactions and comments are not modelled either.
- Foreign keys of follows, reactions and messages are not modelled: rows referring to missing users or posts are accepted.
- The follow table is a set of pairs, so writing a pair that is already stored leaves the table unchanged. The schema's uniqueness rule for follows is not part of this model, so whether the database would refuse such a row or store a second copy is not modelled; the follow service checks for an existing follow before writing.
- Each check-then-write service operation is taken as one atomic step. Concurrent requests are not modelled.
- Image lists that are not arrays of strings are not modelled. The request body's shape is taken as declared.
- New ids and creation timestamps are parameters. Post and comment creation require an id not yet in use, as the database's generated ids are.
- The generated ids of reaction and message rows are not modelled. A reaction or message row is identified by its fields alone, so those tables are bags: two rows with equal fields cannot be told apart, and the reactions a post lookup returns and the message a send returns carry no id.
- `getPost` does not resolve its author's picture, and the model keeps that: the picture is returned as stored.
- An empty picture key is kept as the empty string by `getLoggedUser`, but becomes null in `getUser`, in the user listings and in post authors. The model keeps each behaviour as written.

=== FILE: auth.dfy ===
/** The request guard in front of the authenticated routes: the
    `Authorization` header must read `Bearer <token>`, and the token must
    then verify. Token verification itself (a JSON Web Token checked with the
    server secret) is a parameter of the model. */
module Auth {
  import opened Common
  import opened Strings

  /** `authorization?.split(' ') ?? []`: the space-separated fields of the
      header, or no field at all when the header is absent. */
  function HeaderFields(authorization: Option<string>): seq<string> {
    if authorization.None? then [] else Split(authorization.value, ' ')
  }

  /** Array destructuring: the i-th field, `undefined` past the end. */
  function Field(fields: seq<string>, i: nat): Option<string> {
    if i < |fields| then Some(fields[i]) else None
  }

  /** The shape check of `withAuth`: the token, or MISSING_TOKEN when the
      scheme field is missing or not exactly "Bearer", or the token field is
      missing or empty. */
  function BearerToken(authorization: Option<string>): (r: Result<string>)
    ensures r.Err? ==> r.error == Unauthorized("MISSING_TOKEN")
    ensures r.Ok? ==> authorization.Some?
  {
    var fields := HeaderFields(authorization);
    var bearer := Field(fields, 0);
    var token := Field(fields, 1);
    if !Truthy(bearer) || !Truthy(token) || bearer.value != "Bearer" then Err(Unauthorized("MISSING_TOKEN"))
    else Ok(token.value)
  }

  /** The header is "Bearer", one space, the non-empty space-free token t,
      and then either its end or another space (after which anything goes). */
  predicate BearerShape(h: string, t: string) {
    && t != "" && ' ' !in t
    && StartsWith(h, "Bearer " + t)
    && (|h| == 7 + |t| || h[7 + |t|] == ' ')
  }

  lemma BearerTokenHasShape(h: string)
    ensures BearerToken(Some(h)).Ok? ==> BearerShape(h, BearerToken(Some(h)).value)
  {
    var fields := Split(h, ' ');
    if |fields| >= 2 && fields[0] == "Bearer" && fields[1] != "" {
      var t := fields[1];
      JoinSplit(h, ' ');
      var rest := if |fields| == 2 then "" else [' '] + Join(fields[2..], ' ');
      assert Join(fields[1..], ' ') == t + rest by {
        assert fields[1..][1..] == fields[2..];
      }
      assert h == ("Bearer " + t) + rest;
    }
  }

  lemma ShapeGivesBearerToken(h: string, t: string)
    requires BearerShape(h, t)
    ensures BearerToken(Some(h)) == Ok(t)
  {
    var tail := h[7..];
    assert h == "Bearer" + [' '] + tail;
    SplitFirst("Bearer", ' ', tail);
    if |h| == 7 + |t| {
      assert tail == t;
      SplitNone(t, ' ');
    } else {
      var more := h[8 + |t|..];
      assert tail == t + [' '] + more;
      SplitFirst(t, ' ', more);
    }
  }

  /** The shape check accepts a header, with token t, exactly when the header
      has the Bearer shape with t as its second field. */
  lemma BearerTokenIffShape(h: string, t: string)
    ensures BearerToken(Some(h)) == Ok(t) <==> BearerShape(h, t)
  {
    BearerTokenHasShape(h);
    if BearerShape(h, t) {
      ShapeGivesBearerToken(h, t);
    }
  }

  /** Only the first two fields are read: whatever follows the token after a
      space is ignored. */
  lemma ExtraFieldsIgnored(t: string, extra: string)
    requires t != "" && ' ' !in t
    ensures BearerToken(Some("Bearer " + t + " " + extra)) == Ok(t)
  {
    var h := "Bearer " + t + " " + extra;
    assert h[..7 + |t|] == "Bearer " + t;
    ShapeGivesBearerToken(h, t);
  }

  /** The scheme is compared exactly: a header not starting with "Bearer "
      (a lower-case scheme, say) is refused. */
  lemma SchemeMustBeBearer(h: string)
    requires !StartsWith(h, "Bearer ")
    ensures BearerToken(Some(h)) == Err(Unauthorized("MISSING_TOKEN"))
  {
    BearerTokenHasShape(h);
  }

  /** No header at all is refused. */
  lemma MissingHeaderRefused()
    ensures BearerToken(None) == Err(Unauthorized("MISSING_TOKEN"))
  {
  }

  /** A scheme with no token field is refused. */
  lemma SchemeAloneRefused()
    ensures BearerToken(Some("Bearer")) == Err(Unauthorized("MISSING_TOKEN"))
  {
    BearerTokenHasShape("Bearer");
  }

  /** Two spaces after the scheme leave the token field empty, which is refused
      whatever follows. */
  lemma EmptyTokenFieldRefused(rest: string)
    ensures BearerToken(Some("Bearer  " + rest)) == Err(Unauthorized("MISSING_TOKEN"))
  {
    var h := "Bearer  " + rest;
    BearerTokenHasShape(h);
    assert forall t :: |t| >= 1 && StartsWith(h, "Bearer " + t) ==> t[0] == h[7];
  }

  /** `withAuth`: the shape check, then verification of the token; verify
      stands for `jwt.verify` with the server secret and gives the decoded
      context, or None when the token does not verify. */
  function WithAuth<C>(authorization: Option<string>, verify: string -> Option<C>): (r: Result<C>)
    ensures BearerToken(authorization).Err? ==> r == Err(Unauthorized("MISSING_TOKEN"))
    ensures BearerToken(authorization).Ok? ==>
              (r.Ok? <==> verify(BearerToken(authorization).value).Some?) &&
              (r.Ok? ==> verify(BearerToken(authorization).value) == Some(r.value)) &&
              (r.Err? ==> r.error == Unauthorized("INVALID_TOKEN"))
  {
    match BearerToken(authorization)
    case Err(e) => Err(e)
    case Ok(token) =>
      match verify(token)
      case None => Err(Unauthorized("INVALID_TOKEN"))
      case Some(context) => Ok(context)
  }

  /** A badly shaped header is refused before the token is verified: the
      outcome does not depend on the verifier. */
  lemma BadShapeNeverVerifies<C>(authorization: Option<string>, v1: string -> Option<C>, v2: string -> Option<C>)
    requires BearerToken(authorization).Err?
    ensures WithAuth(authorization, v1) == WithAuth(authorization, v2)
  {
  }
}

=== FILE: bucket.dfy ===
/** The object-storage façade. Presigning is left uninterpreted: a signed URL
    is some fixed function of the object key, given when the façade is built.
    The façade remembers, as ghost state, the keys it was asked to sign, so
    that the number and order of calls can be stated. */
module Bucket {
  import opened Common

  class BucketManager {
    /** The read URL presigned for a key. */
    const signGet: string -> string
    /** The upload URL presigned for a key. */
    const signPut: string -> string
    /** Keys passed to GetImage, in call order. */
    ghost var gets: seq<string>
    /** Keys passed to PutImage, in call order. */
    ghost var puts: seq<string>

    constructor (signGet: string -> string, signPut: string -> string)
      ensures this.signGet == signGet && this.signPut == signPut
      ensures gets == [] && puts == []
    {
      this.signGet := signGet;
      this.signPut := signPut;
      gets := [];
      puts := [];
    }

    method GetImage(key: string) returns (url: string)
      modifies this`gets
      ensures url == signGet(key)
      ensures gets == old(gets) + [key]
    {
      url := signGet(key);
      gets := gets + [key];
    }

    method PutImage(key: string) returns (url: string)
      modifies this`puts
      ensures url == signPut(key)
      ensures puts == old(puts) + [key]
    {
      url := signPut(key);
      puts := puts + [key];
    }
  }

  /** The URLs for a list of keys, one per key and in the same order. */
  function SignAll(sign: string -> string, keys: seq<string>): (urls: seq<string>)
    ensures |urls| == |keys|
    ensures forall i {:trigger urls[i]} :: 0 <= i < |keys| ==> urls[i] == sign(keys[i])
  {
    seq(|keys|, i requires 0 <= i < |keys| => sign(keys[i]))
  }

  /** `pic ? await getImage(pic) : null`: a non-empty key is replaced by its
      signed URL; an empty or missing key becomes null. */
  function Resolved(sign: string -> string, pic: Option<string>): Option<string> {
    if Truthy(pic) then Some(sign(pic.value)) else None
  }

  /** The keys that resolving pic signs: the key itself when it is non-empty. */
  function PictureKeys(pic: Option<string>): (keys: seq<string>)
    ensures |keys| == if Truthy(pic) then 1 else 0
  {
    if Truthy(pic) then [pic.value] else []
  }

  method ResolvePicture(bucket: BucketManager, pic: Option<string>) returns (r: Option<string>)
    modifies bucket`gets
    ensures r == Resolved(bucket.signGet, pic)
    ensures bucket.gets == old(bucket.gets) + PictureKeys(pic)
  {
    if Truthy(pic) {
      var url := bucket.GetImage(pic.value);
      r := Some(url);
    } else {
      r := None;
    }
  }
}

=== FILE: collections.dfy ===
/** What the database does with a table when it answers a query: select the
    rows a `where` clause keeps, find the first row that matches, and order
    rows by an `orderBy` clause. */
module Collections {
  import opened Common

  /** The rows of s that keep accepts, in table order. */
  function Filter<T(!new)>(s: seq<T>, keep: T -> bool): (r: seq<T>)
    ensures |r| <= |s|
    ensures forall i :: 0 <= i < |r| ==> keep(r[i])
    decreases |s|
  {
    if s == [] then []
    else
      (if keep(s[0]) then [s[0]] else []) + Filter(s[1..], keep)
  }

  /** The selection keeps every accepted row as often as the table holds it, and no other row. */
  lemma {:induction false} FilterMultiset<T(!new)>(s: seq<T>, keep: T -> bool, x: T)
    ensures multiset(Filter(s, keep))[x] == if keep(x) then multiset(s)[x] else 0
    decreases |s|
  {
    if s != [] {
      FilterMultiset(s[1..], keep, x);
      assert s == [s[0]] + s[1..];
    }
  }

  lemma FilterMembership<T(!new)>(s: seq<T>, keep: T -> bool, x: T)
    ensures x in Filter(s, keep) <==> x in s && keep(x)
  {
    FilterMultiset(s, keep, x);
    assert x in Filter(s, keep) <==> multiset(Filter(s, keep))[x] > 0;
    assert x in s <==> multiset(s)[x] > 0;
  }

  /** Two predicates that agree on every row select the same rows. */
  lemma {:induction false} FilterAgree<T(!new)>(s: seq<T>, p: T -> bool, q: T -> bool)
    requires forall i :: 0 <= i < |s| ==> p(s[i]) == q(s[i])
    ensures Filter(s, p) == Filter(s, q)
    decreases |s|
  {
    if s != [] {
      FilterAgree(s[1..], p, q);
    }
  }

  /** Selecting from a table with one more row at the end. */
  lemma {:induction false} FilterAppend<T(!new)>(s: seq<T>, x: T, keep: T -> bool)
    ensures Filter(s + [x], keep) == Filter(s, keep) + (if keep(x) then [x] else [])
    decreases |s|
  {
    var tail := if keep(x) then [x] else [];
    if s == [] {
      assert s + [x] == [x];
      assert [x][1..] == [];
    } else {
      var head := if keep(s[0]) then [s[0]] else [];
      assert (s + [x])[0] == s[0];
      assert (s + [x])[1..] == s[1..] + [x];
      FilterAppend(s[1..], x, keep);
      calc {
        Filter(s + [x], keep);
        head + Filter(s[1..] + [x], keep);
        head + (Filter(s[1..], keep) + tail);
        (head + Filter(s[1..], keep)) + tail;
      }
    }
  }

  /** Selecting from one row. */
  lemma FilterSingleton<T(!new)>(x: T, keep: T -> bool)
    ensures Filter([x], keep) == if keep(x) then [x] else []
  {
    assert [x][1..] == [];
  }

  /** Selecting from two tables laid end to end. */
  lemma {:induction false} FilterConcat<T(!new)>(a: seq<T>, b: seq<T>, keep: T -> bool)
    ensures Filter(a + b, keep) == Filter(a, keep) + Filter(b, keep)
    decreases |a|
  {
    if a == [] {
      assert a + b == b;
    } else {
      assert (a + b)[0] == a[0];
      assert (a + b)[1..] == a[1..] + b;
      FilterConcat(a[1..], b, keep);
    }
  }

  /** Selecting by p and then by q is selecting once by both. */
  lemma {:induction false} FilterFilter<T(!new)>(s: seq<T>, p: T -> bool, q: T -> bool, both: T -> bool)
    requires forall i :: 0 <= i < |s| ==> both(s[i]) == (p(s[i]) && q(s[i]))
    ensures Filter(Filter(s, p), q) == Filter(s, both)
    decreases |s|
  {
    if s != [] {
      var head := if p(s[0]) then [s[0]] else [];
      FilterFilter(s[1..], p, q, both);
      FilterConcat(head, Filter(s[1..], p), q);
      if p(s[0]) {
        FilterSingleton(s[0], q);
      }
    }
  }

  /** The rows p selects that keep drops are all copies of y; so selecting
      by p after keep loses exactly the copies of y when p selects y and
      keep drops it, and nothing otherwise. */
  lemma {:induction false} FilterDropped<T(!new)>(s: seq<T>, keep: T -> bool, p: T -> bool, y: T)
    requires forall x :: p(x) && !keep(x) ==> x == y
    ensures |Filter(Filter(s, keep), p)| + (if p(y) && !keep(y) then multiset(s)[y] else 0) == |Filter(s, p)|
    decreases |s|
  {
    if s != [] {
      var kept := if keep(s[0]) then [s[0]] else [];
      FilterDropped(s[1..], keep, p, y);
      FilterConcat(kept, Filter(s[1..], keep), p);
      FilterSingleton(s[0], p);
      assert s == [s[0]] + s[1..];
    }
  }

  /** When every row satisfies exactly one of p and q, the two selections
      together have as many rows as the table. */
  lemma {:induction false} FilterPartition<T(!new)>(s: seq<T>, p: T -> bool, q: T -> bool)
    requires forall i :: 0 <= i < |s| ==> p(s[i]) != q(s[i])
    ensures |Filter(s, p)| + |Filter(s, q)| == |s|
    decreases |s|
  {
    if s != [] {
      FilterPartition(s[1..], p, q);
    }
  }

  /** Rows with pairwise distinct keys (a primary key). */
  predicate KeysUnique<T, K(==)>(s: seq<T>, key: T -> K) {
    forall i, j :: 0 <= i < j < |s| ==> key(s[i]) != key(s[j])
  }

  /** A selection from a table with a primary key still has distinct keys. */
  lemma {:induction false} FilterKeepsKeysUnique<T(!new), K>(s: seq<T>, keep: T -> bool, key: T -> K)
    requires KeysUnique(s, key)
    ensures KeysUnique(Filter(s, keep), key)
    decreases |s|
  {
    if s != [] {
      var tail := s[1..];
      var rest := Filter(tail, keep);
      assert KeysUnique(tail, key) by {
        forall i, j | 0 <= i < j < |tail| ensures key(tail[i]) != key(tail[j]) {
          assert tail[i] == s[i + 1] && tail[j] == s[j + 1];
        }
      }
      FilterKeepsKeysUnique(tail, keep, key);
      if keep(s[0]) {
        var r := [s[0]] + rest;
        forall j | 0 < j < |r| ensures key(r[0]) != key(r[j]) {
          FilterMembership(tail, keep, r[j]);
          var k :| 0 <= k < |tail| && tail[k] == r[j];
          assert s[k + 1] == r[j];
        }
        assert KeysUnique(r, key) by {
          forall i, j | 0 <= i < j < |r| ensures key(r[i]) != key(r[j]) {
            if i > 0 {
              assert r[i] == rest[i - 1] && r[j] == rest[j - 1];
            }
          }
        }
      } else {
        assert Filter(s, keep) == rest;
      }
    }
  }

  /** The first row that matches, or None when no row does. */
  function FindFirst<T(!new)>(s: seq<T>, match_: T -> bool): (r: Option<T>)
    ensures r.Some? ==> r.value in s && match_(r.value)
    ensures r.None? <==> forall i :: 0 <= i < |s| ==> !match_(s[i])
    decreases |s|
  {
    if s == [] then None
    else if match_(s[0]) then Some(s[0])
    else FindFirst(s[1..], match_)
  }

  /** s is ordered by le: every row comes no later than the rows after it. */
  ghost predicate SortedBy<T(!new)>(s: seq<T>, le: (T, T) -> bool) {
    forall i, j :: 0 <= i < j < |s| ==> le(s[i], s[j])
  }

  /** le is a total preorder on the rows of s (an `orderBy` whose last key is unique). */
  ghost predicate TotalPreorderOn<T(!new)>(s: seq<T>, le: (T, T) -> bool) {
    && (forall x, y :: x in s && y in s ==> le(x, y) || le(y, x))
    && (forall x, y, z :: x in s && y in s && z in s && le(x, y) && le(y, z) ==> le(x, z))
  }

  /** x inserted before the first row it is not after. */
  function Insert<T(!new)>(x: T, s: seq<T>, le: (T, T) -> bool): (r: seq<T>)
    ensures multiset(r) == multiset(s) + multiset{x}
    decreases |s|
  {
    if s == [] then [x]
    else if le(x, s[0]) then [x] + s
    else
      assert s == [s[0]] + s[1..];
      [s[0]] + Insert(x, s[1..], le)
  }

  /** The rows of s in the order le gives (insertion sort; rows that tie keep table order). */
  function SortBy<T(!new)>(s: seq<T>, le: (T, T) -> bool): (r: seq<T>)
    ensures multiset(r) == multiset(s)
    decreases |s|
  {
    if s == [] then []
    else
      assert s == [s[0]] + s[1..];
      Insert(s[0], SortBy(s[1..], le), le)
  }

  lemma {:induction false} InsertSorted<T(!new)>(x: T, s: seq<T>, le: (T, T) -> bool, all: seq<T>)
    requires x in all && forall y :: y in s ==> y in all
    requires TotalPreorderOn(all, le)
    requires SortedBy(s, le)
    ensures SortedBy(Insert(x, s, le), le)
    decreases |s|
  {
    if s != [] && !le(x, s[0]) {
      var t := Insert(x, s[1..], le);
      InsertSorted(x, s[1..], le, all);
      assert multiset(t) == multiset(s[1..]) + multiset{x};
      forall j | 0 < j < |[s[0]] + t|
        ensures le(s[0], ([s[0]] + t)[j])
      {
        var y := t[j - 1];
        assert y in multiset(t);
        if y == x {
          assert le(s[0], x);
        } else {
          assert y in multiset(s[1..]);
          var k :| 0 <= k < |s[1..]| && s[1..][k] == y;
          assert le(s[0], s[k + 1]);
        }
      }
    }
  }

  /** SortBy orders the rows whenever le is a total preorder on them. */
  lemma {:induction false} SortBySorted<T(!new)>(s: seq<T>, le: (T, T) -> bool)
    requires TotalPreorderOn(s, le)
    ensures SortedBy(SortBy(s, le), le)
    decreases |s|
  {
    if s != [] {
      assert TotalPreorderOn(s[1..], le);
      SortBySorted(s[1..], le);
      var t := SortBy(s[1..], le);
      forall y | y in t ensures y in s {
        assert y in multiset(t);
      }
      InsertSorted(s[0], t, le, s);
    }
  }

  /** Lexicographic order on identifiers, by character code. */
  predicate IdLe(a: Id, b: Id)
    decreases |a|
  {
    a == [] || (b != [] && (a[0] < b[0] || (a[0] == b[0] && IdLe(a[1..], b[1..]))))
  }

  lemma {:induction false} IdLeTotal(a: Id, b: Id)
    ensures IdLe(a, b) || IdLe(b, a)
    decreases |a|
  {
    if a != [] && b != [] && a[0] == b[0] {
      IdLeTotal(a[1..], b[1..]);
    }
  }

  lemma {:induction false} IdLeTransitive(a: Id, b: Id, c: Id)
    requires IdLe(a, b) && IdLe(b, c)
    ensures IdLe(a, c)
    decreases |a|
  {
    if a != [] && b != [] && c != [] && a[0] == b[0] == c[0] {
      IdLeTransitive(a[1..], b[1..], c[1..]);
    }
  }
}

=== FILE: comment_repository.dfy ===
/** The comment repository: comments are rows of the post table with kind
    COMMENT and a parent post. */
module CommentRepository {
  import opened Common
  import opened Collections
  import opened Store
  import opened PostRepository

  /** The images a row is stored with when the body is spread into it: the
      list as given, or the column's empty default when there is none. */
  function StoredImages(images: Option<seq<string>>): seq<string> {
    if images.None? then [] else images.value
  }

  /** `commentPost(userId, postId, data)`: stores a comment by userId on
      postId with the body's content and images as given (no key rewriting,
      unlike a post). The id and the creation stamp are the ones the database
      assigns. */
  method CommentPost(db: Database, userId: Id, postId: Id, data: CreatePostInput, id: Id, createdAt: int)
    returns (r: Result<Post>)
    requires db.Valid() && !HasPost(db.posts, id)
    modifies db`posts
    ensures db.Valid()
    ensures r.Err? <==> !HasUser(db.users, userId)
    ensures r.Err? ==> r.error == ForeignKeyViolation && db.posts == old(db.posts)
    ensures r.Ok? ==> r.value == Post(id, userId, data.content, StoredImages(data.images), Some(postId), COMMENT, createdAt)
    ensures r.Ok? ==> db.posts == old(db.posts) + [r.value]
    ensures r.Ok? ==> r.value in GetCommentsByUser(db.posts, userId)
  {
    if !HasUser(db.users, userId) {
      return Err(ForeignKeyViolation);
    }
    var comment := Post(id, userId, data.content, StoredImages(data.images), Some(postId), COMMENT, createdAt);
    db.posts := db.posts + [comment];
    r := Ok(comment);
  }

  predicate IsCommentBy(p: Post, userId: Id) {
    p.authorId == userId && p.kind == COMMENT
  }

  /** `getCommentsByUser(userId)`: the comments written by userId, in table order. */
  function GetCommentsByUser(posts: seq<Post>, userId: Id): (r: seq<Post>)
    ensures forall p :: p in r <==> p in posts && p.authorId == userId && p.kind == COMMENT
  {
    var keep := (p: Post) => IsCommentBy(p, userId);
    forall p ensures p in Filter(posts, keep) <==> p in posts && keep(p) {
      FilterMembership(posts, keep, p);
    }
    Filter(posts, keep)
  }

  /** A new comment is counted among its parent's comments. */
  lemma CommentCountsForParent(posts: seq<Post>, c: Post)
    requires c.parentId.Some?
    ensures |CommentsOf(posts + [c], c.parentId.value)| == |CommentsOf(posts, c.parentId.value)| + 1
  {
    FilterAppend(posts, c, (q: Post) => q.parentId == Some(c.parentId.value));
  }
}

=== FILE: common.dfy ===
/** Identifiers, optional values, the outcome of an operation that may raise,
    and the exceptions the services raise. */
module Common {

  /** Every entity is identified by a string (a uuid in the database). */
  type Id = string

  datatype Option<+T> = None | Some(value: T)

  /** The exceptions raised by the services and by the object-relational
      mapper when a write does not apply. */
  datatype Error =
    | NotFound(entity: string)                  // NotFoundException('post' | 'user')
    | Forbidden                                 // ForbiddenException()
    | Conflict(code: string)                    // ConflictException(<error code>)
    | Unauthorized(code: string)                // UnauthorizedException(<error code>)
    | Validation(message: string, property: string)
    | RecordNotFound                            // the mapper's `update`/`delete` matched no row
    | ForeignKeyViolation                       // the mapper refused a row naming a missing user

  /** A value, or the exception raised instead of returning it. */
  datatype Result<+T> = Ok(value: T) | Err(error: Error)

  /** An operation returning nothing, or the exception it raised. */
  datatype Outcome = Pass | Fail(error: Error)

  /** JavaScript truthiness of an optional string: `undefined`, `null` and `""` are falsy. */
  predicate Truthy(s: Option<string>) {
    s.Some? && s.value != ""
  }

  /** JavaScript truthiness of an optional number: `undefined`, `NaN` (both None here) and `0` are falsy. */
  predicate NumTruthy(n: Option<int>) {
    n.Some? && n.value != 0
  }
}

=== FILE: follow_repository.dfy ===
/** The follow repository: reads and writes of the follow relation. A row
    (follower, followed) says that follower follows followed; the relation
    is directed. */
module FollowRepository {
  import opened Common
  import opened Store

  /** `checkFollow(userId, followUserId)`: whether some row has follower
      userId and followed followUserId. */
  function CheckFollow(follows: set<Follow>, userId: Id, followUserId: Id): (r: bool)
    ensures r <==> exists f :: f in follows && f.followerId == userId && f.followedId == followUserId
  {
    Follow(userId, followUserId) in follows
  }

  /** `followUser(userId, followUserId)`: inserts the row (userId, followUserId). */
  method FollowUser(db: Database, userId: Id, followUserId: Id)
    modifies db`follows
    ensures db.follows == old(db.follows) + {Follow(userId, followUserId)}
  {
    db.follows := db.follows + {Follow(userId, followUserId)};
  }

  /** `unfollowUser(userId, unfollowUserId)`: `deleteMany` of the rows
      (userId, unfollowUserId); nothing happens when there is none. */
  method UnfollowUser(db: Database, userId: Id, unfollowUserId: Id)
    modifies db`follows
    ensures db.follows == old(db.follows) - {Follow(userId, unfollowUserId)}
  {
    db.follows := db.follows - {Follow(userId, unfollowUserId)};
  }

  /** After inserting (u, v) the check for (u, v) holds, and after deleting it the check fails,
      whatever the relation held before. */
  lemma CheckAfterWrite(follows: set<Follow>, u: Id, v: Id)
    ensures CheckFollow(follows + {Follow(u, v)}, u, v)
    ensures !CheckFollow(follows - {Follow(u, v)}, u, v)
  {
  }

  /** Following is directed: u following v says nothing about v following u. */
  lemma FollowIsDirected(u: Id, v: Id)
    requires u != v
    ensures CheckFollow({Follow(u, v)}, u, v) && !CheckFollow({Follow(u, v)}, v, u)
  {
  }

  /** Deleting a pair leaves every other pair as it was. */
  lemma UnfollowKeepsOthers(follows: set<Follow>, u: Id, v: Id, a: Id, b: Id)
    requires (a, b) != (u, v)
    ensures CheckFollow(follows - {Follow(u, v)}, a, b) == CheckFollow(follows, a, b)
  {
  }
}

=== FILE: follow_service.dfy ===
/** The follow service: each operation checks the relation, then either
    raises a conflict or writes it. Check and write are taken as one atomic
    step. There is no guard against following oneself. */
module FollowService {
  import opened Common
  import opened Store
  import FollowRepository

  method FollowUser(db: Database, userId: Id, followUserId: Id) returns (r: Outcome)
    modifies db`follows
    ensures r.Fail? <==> Follow(userId, followUserId) in old(db.follows)
    ensures r.Fail? ==> r.error == Conflict("USER_ALREADY_FOLLOWED") && db.follows == old(db.follows)
    ensures r.Pass? ==> db.follows == old(db.follows) + {Follow(userId, followUserId)}
  {
    var following := FollowRepository.CheckFollow(db.follows, userId, followUserId);
    if following {
      return Fail(Conflict("USER_ALREADY_FOLLOWED"));
    }
    FollowRepository.FollowUser(db, userId, followUserId);
    r := Pass;
  }

  method UnfollowUser(db: Database, userId: Id, unfollowUserId: Id) returns (r: Outcome)
    modifies db`follows
    ensures r.Fail? <==> Follow(userId, unfollowUserId) !in old(db.follows)
    ensures r.Fail? ==> r.error == Conflict("USER_NOT_FOLLOWED") && db.follows == old(db.follows)
    ensures r.Pass? ==> db.follows == old(db.follows) - {Follow(userId, unfollowUserId)}
  {
    var following := FollowRepository.CheckFollow(db.follows, userId, unfollowUserId);
    if !following {
      return Fail(Conflict("USER_NOT_FOLLOWED"));
    }
    FollowRepository.UnfollowUser(db, userId, unfollowUserId);
    r := Pass;
  }

  /** A follow that succeeds, undone by an unfollow, leaves the relation as it was. */
  method FollowThenUnfollow(db: Database, userId: Id, otherId: Id) returns (followed: Outcome, unfollowed: Outcome)
    modifies db`follows
    ensures followed.Pass? <==> Follow(userId, otherId) !in old(db.follows)
    ensures followed.Pass? ==> unfollowed.Pass? && db.follows == old(db.follows)
  {
    followed := FollowUser(db, userId, otherId);
    unfollowed := UnfollowUser(db, userId, otherId);
  }

  /** Following oneself is accepted like any other follow. */
  method FollowSelf(db: Database, userId: Id) returns (r: Outcome)
    requires Follow(userId, userId) !in db.follows
    modifies db`follows
    ensures r.Pass? && Follow(userId, userId) in db.follows
  {
    r := FollowUser(db, userId, userId);
  }
}

=== FILE: message_repository.dfy ===
/** The message repository: direct messages between two users, and the
    conversation history between them in order of creation. */
module MessageRepository {
  import opened Common
  import opened Store
  import opened Collections

  /** The body of a new message: `{ content, receiverId }`. */
  datatype CreateMessageInput = CreateMessageInput(content: string, receiverId: Id)

  /** m was sent by one of a, b to the other. */
  predicate Between(m: Message, a: Id, b: Id) {
    (m.receiverId == b && m.senderId == a) || (m.receiverId == a && m.senderId == b)
  }

  /** `orderBy: { createdAt: 'asc' }`. */
  predicate CreatedAtAscending(x: Message, y: Message) {
    x.createdAt <= y.createdAt
  }

  /** `getMessageHistory(senderId, receiverId)`: the messages exchanged
      between the two users in either direction, oldest first (messages with
      the same timestamp stay in table order). */
  function GetMessageHistory(messages: seq<Message>, senderId: Id, receiverId: Id): (r: seq<Message>)
    ensures SortedBy(r, CreatedAtAscending)
    ensures forall m :: multiset(r)[m] == if Between(m, senderId, receiverId) then multiset(messages)[m] else 0
  {
    var keep := (m: Message) => Between(m, senderId, receiverId);
    var selected := Filter(messages, keep);
    forall m | true
      ensures multiset(SortBy(selected, CreatedAtAscending))[m] == if keep(m) then multiset(messages)[m] else 0
    {
      FilterMultiset(messages, keep, m);
    }
    SortBySorted(selected, CreatedAtAscending);
    SortBy(selected, CreatedAtAscending)
  }

  /** `create(senderId, data)`: stores the message with the sender given and
      the receiver and content of the body; the database stamps it. */
  method Create(db: Database, senderId: Id, data: CreateMessageInput, createdAt: int) returns (m: Message)
    modifies db`messages
    ensures m == Message(senderId, data.receiverId, data.content, createdAt)
    ensures db.messages == old(db.messages) + [m]
    ensures m in GetMessageHistory(db.messages, senderId, data.receiverId)
  {
    m := Message(senderId, data.receiverId, data.content, createdAt);
    db.messages := db.messages + [m];
    CreatedMessageInHistory(old(db.messages), m);
  }

  /** Both participants see the same conversation, in the same order. */
  lemma HistorySymmetric(messages: seq<Message>, a: Id, b: Id)
    ensures GetMessageHistory(messages, a, b) == GetMessageHistory(messages, b, a)
  {
    FilterAgree(messages, (m: Message) => Between(m, a, b), (m: Message) => Between(m, b, a));
  }

  /** A message appears in a history exactly when it was sent between those two users. */
  lemma HistoryMembership(messages: seq<Message>, a: Id, b: Id, m: Message)
    ensures m in GetMessageHistory(messages, a, b) <==> m in messages && Between(m, a, b)
  {
    var r := GetMessageHistory(messages, a, b);
    assert m in r <==> multiset(r)[m] > 0;
    assert m in messages <==> multiset(messages)[m] > 0;
  }

  /** A stored message is in its sender's history with its receiver. */
  lemma CreatedMessageInHistory(messages: seq<Message>, m: Message)
    ensures m in GetMessageHistory(messages + [m], m.senderId, m.receiverId)
  {
    HistoryMembership(messages + [m], m.senderId, m.receiverId, m);
  }
}

=== FILE: pagination.dfy ===
/** Pagination options as the controllers pass them, and the `cursor`, `skip`
    and `take` arguments the repositories derive from them for `findMany`.
    What the database then cuts from the ordered rows is the mapper's
    business and is not part of this model. */
module Pagination {
  import opened Common

  /** `{ limit?, before?, after? }`; an absent or non-numeric limit is None. */
  datatype CursorPagination = CursorPagination(limit: Option<int>, before: Option<Id>, after: Option<Id>)

  /** `{ limit?, skip? }`. */
  datatype OffsetPagination = OffsetPagination(limit: Option<int>, skip: Option<int>)

  /** `findMany({ cursor: { id }, skip, take })`; None is `undefined`. */
  datatype CursorArgs = CursorArgs(cursor: Option<Id>, skip: Option<int>, take: Option<int>)

  /** `findMany({ take, skip })`; None is `undefined`. */
  datatype OffsetArgs = OffsetArgs(take: Option<int>, skip: Option<int>)

  /** `options.after ?? options.before`: `??` falls back only on a missing value,
      not on an empty string. */
  function AfterOrBefore(o: CursorPagination): Option<Id> {
    if o.after.Some? then o.after else o.before
  }

  /** The three cursor arguments, computed as the repository writes them. */
  function FindManyCursorArgs(o: CursorPagination): (r: CursorArgs)
    // the cursor is `after` when it is a non-empty string, else a non-empty `before`
    ensures Truthy(o.after) ==> r.cursor == o.after
    ensures !Truthy(o.after) && Truthy(o.before) ==> r.cursor == o.before
    ensures !Truthy(o.after) && !Truthy(o.before) ==> r.cursor.None?
    // the cursor row itself is skipped when `after ?? before` is a non-empty string
    ensures r.skip.Some? <==> Truthy(AfterOrBefore(o))
    ensures r.skip.Some? ==> r.skip.value == 1
    // a zero or missing limit takes everything; `before` pages backwards
    ensures r.take.Some? <==> NumTruthy(o.limit)
    ensures r.take.Some? ==> r.take.value == if Truthy(o.before) then -o.limit.value else o.limit.value
  {
    CursorArgs(
      if Truthy(o.after) then o.after else if Truthy(o.before) then o.before else None,
      if Truthy(AfterOrBefore(o)) then Some(1) else None,
      if NumTruthy(o.limit) then (if Truthy(o.before) then Some(-o.limit.value) else Some(o.limit.value)) else None)
  }

  /** A skipped row is always a cursor row: skip is never set without a cursor. */
  lemma SkipOnlyWithCursor(o: CursorPagination)
    ensures FindManyCursorArgs(o).skip.Some? ==> FindManyCursorArgs(o).cursor.Some?
  {
  }

  /** With both `after` and `before`, the cursor is `after` but the take is
      negative, so the page is read backwards from `after`. */
  lemma AfterAndBefore(o: CursorPagination)
    requires Truthy(o.after) && Truthy(o.before) && NumTruthy(o.limit) && o.limit.value > 0
    ensures FindManyCursorArgs(o).cursor == o.after
    ensures FindManyCursorArgs(o).take.value < 0
  {
  }

  /** An empty `after` next to a real `before` sets the cursor without skipping it,
      so the page starts with the cursor row itself. */
  lemma EmptyAfterKeepsCursorRow()
    ensures var r := FindManyCursorArgs(CursorPagination(None, Some("b"), Some("")));
            r.cursor == Some("b") && r.skip.None?
  {
  }

  /** The offset arguments: each option is passed on only when it is a non-zero number. */
  function FindManyOffsetArgs(o: OffsetPagination): (r: OffsetArgs)
    ensures r.take.Some? <==> NumTruthy(o.limit)
    ensures r.skip.Some? <==> NumTruthy(o.skip)
    ensures r.take.Some? ==> r.take == o.limit
    ensures r.skip.Some? ==> r.skip == o.skip
  {
    OffsetArgs(if NumTruthy(o.limit) then o.limit else None, if NumTruthy(o.skip) then o.skip else None)
  }
}

=== FILE: post_repository.dfy ===
/** The post repository: creation of top-level posts with their image keys,
    the home feed, deletion, and the two lookups that return posts with their
    author, reactions and counts. */
module PostRepository {
  import opened Common
  import opened Strings
  import opened Collections
  import opened Store
  import opened Pagination

  /** The body of a new post: `{ content, images? }`. */
  datatype CreatePostInput = CreatePostInput(content: string, images: Option<seq<string>>)

  /** A post with its author, its reactions and the derived counts. */
  datatype ExtendedPost = ExtendedPost(
    post: Post,
    author: UserView,
    qtyLikes: nat,
    qtyRetweets: nat,
    qtyComments: nat,
    reactions: seq<Reaction>)

  // ---------------------------------------------------------------- image keys

  /** The storage key of image number index read from the clock at time now
      (milliseconds): `postImages/<userId>/<now><index><name>`. */
  function ImageKey(userId: Id, now: nat, index: nat, name: string): (k: string)
    ensures StartsWith(k, "postImages/" + userId + "/")
    ensures EndsWith(k, name)
  {
    var folder := "postImages/" + userId + "/";
    var k := folder + NatToString(now) + NatToString(index) + name;
    assert k == folder + (NatToString(now) + NatToString(index) + name);
    assert k[..|folder|] == folder;
    assert k[|k| - |name|..] == name;
    k
  }

  /** `data.images?.map(...)`: one key per image name, in order; no key when
      the body has no image list. The clock is read once per image:
      clock(i) is the reading taken while building key number i. */
  function ImageKeys(userId: Id, clock: nat -> nat, images: Option<seq<string>>): (keys: seq<string>)
    ensures |keys| == if images.None? then 0 else |images.value|
    ensures images.Some? ==>
              forall i :: 0 <= i < |keys| ==>
                StartsWith(keys[i], "postImages/" + userId + "/") && EndsWith(keys[i], images.value[i])
  {
    if images.None? then []
    else
      var names := images.value;
      var keys := seq(|names|, i requires 0 <= i < |names| => ImageKey(userId, clock(i), i, names[i]));
      assert forall i :: 0 <= i < |keys| ==> keys[i] == ImageKey(userId, clock(i), i, names[i]);
      keys
  }

  /** A name that does not start with a digit. */
  predicate NoLeadingDigit(name: string) {
    name == [] || !IsDigit(name[0])
  }

  /** A key is the author's folder, then the clock reading, the index and the name. */
  lemma ImageKeyParts(userId: Id, now: nat, index: nat, name: string)
    ensures ImageKey(userId, now, index, name)
         == ("postImages/" + userId + "/") + (NatToString(now) + (NatToString(index) + name))
  {
  }

  /** Two concatenations that agree and whose first parts have one length
      agree part by part. */
  lemma SameLengthSplit(x1: string, y1: string, x2: string, y2: string)
    requires x1 + y1 == x2 + y2 && |x1| == |x2|
    ensures x1 == x2 && y1 == y2
  {
    assert x1 == (x1 + y1)[..|x1|] && y1 == (x1 + y1)[|x1|..];
    assert x2 == (x2 + y2)[..|x2|] && y2 == (x2 + y2)[|x2|..];
  }

  /** For clock readings of one digit count and names that do not start with
      a digit, the key determines the reading, the index and the name. */
  lemma ImageKeyInjective(userId: Id, n1: nat, i: nat, a: string, n2: nat, j: nat, b: string)
    requires NoLeadingDigit(a) && NoLeadingDigit(b)
    requires |NatToString(n1)| == |NatToString(n2)|
    requires ImageKey(userId, n1, i, a) == ImageKey(userId, n2, j, b)
    ensures n1 == n2 && i == j && a == b
  {
    var folder := "postImages/" + userId + "/";
    ImageKeyParts(userId, n1, i, a);
    ImageKeyParts(userId, n2, j, b);
    SameLengthSplit(folder, NatToString(n1) + (NatToString(i) + a), folder, NatToString(n2) + (NatToString(j) + b));
    SameLengthSplit(NatToString(n1), NatToString(i) + a, NatToString(n2), NatToString(j) + b);
    NatToStringInjective(n1, n2);
    DigitRunUnique(NatToString(i), a, NatToString(j), b);
    NatToStringInjective(i, j);
  }

  /** The keys of one post are pairwise distinct when no image name starts
      with a digit and every clock reading has the same number of digits
      (as millisecond timestamps have, from 2001 to 2286). */
  lemma ImageKeysDistinct(userId: Id, clock: nat -> nat, names: seq<string>, digits: nat)
    requires forall i :: 0 <= i < |names| ==> NoLeadingDigit(names[i]) && |NatToString(clock(i))| == digits
    ensures var keys := ImageKeys(userId, clock, Some(names));
            forall i, j :: 0 <= i < j < |keys| ==> keys[i] != keys[j]
  {
    var keys := ImageKeys(userId, clock, Some(names));
    forall i, j | 0 <= i < j < |keys|
      ensures keys[i] != keys[j]
    {
      if keys[i] == keys[j] {
        ImageKeyInjective(userId, clock(i), i, names[i], clock(j), j, names[j]);
      }
    }
  }

  /** Without the condition on names, two keys read at the same clock reading
      can coincide: image 1 named "0cat.png" and image 10 named "cat.png". */
  lemma ImageKeysCanCollide(userId: Id, now: nat)
    ensures ImageKey(userId, now, 1, "0cat.png") == ImageKey(userId, now, 10, "cat.png")
  {
    assert NatToString(1) == "1";
    assert NatToString(10) == "10";
    var folder := "postImages/" + userId + "/";
    ImageKeyParts(userId, now, 1, "0cat.png");
    ImageKeyParts(userId, now, 10, "cat.png");
    assert NatToString(1) + "0cat.png" == NatToString(10) + "cat.png";
  }

  /** So a post whose images 1 and 10 are named that way, and whose clock
      does not tick between them, stores one key twice. */
  lemma ImageKeysCollideInOnePost(userId: Id, clock: nat -> nat, names: seq<string>)
    requires |names| == 11 && names[1] == "0cat.png" && names[10] == "cat.png"
    requires clock(1) == clock(10)
    ensures ImageKeys(userId, clock, Some(names))[1] == ImageKeys(userId, clock, Some(names))[10]
  {
    ImageKeysCanCollide(userId, clock(1));
  }

  // ---------------------------------------------------------------- create

  /** `create(userId, data)`: stores a top-level post by userId with the body's
      content and the image keys built from the clock readings. The id and
      the creation stamp are the ones the database assigns. */
  method Create(db: Database, userId: Id, data: CreatePostInput, id: Id, clock: nat -> nat, createdAt: int) returns (r: Result<Post>)
    requires db.Valid()
    requires !HasPost(db.posts, id)
    modifies db`posts
    ensures db.Valid()
    ensures r.Err? <==> !HasUser(db.users, userId)
    ensures r.Err? ==> r.error == ForeignKeyViolation && db.posts == old(db.posts)
    ensures r.Ok? ==> r.value == Post(id, userId, data.content, ImageKeys(userId, clock, data.images), None, POST, createdAt)
    ensures r.Ok? ==> db.posts == old(db.posts) + [r.value]
  {
    if !HasUser(db.users, userId) {
      return Err(ForeignKeyViolation);
    }
    var post := Post(id, userId, data.content, ImageKeys(userId, clock, data.images), None, POST, createdAt);
    db.posts := db.posts + [post];
    r := Ok(post);
  }

  // ---------------------------------------------------------------- extended posts

  /** The reactions on post postId (the `reactions` relation). */
  function OnPost(postId: Id): Reaction -> bool {
    (x: Reaction) => x.postId == postId
  }

  function ReactionsOn(reactions: seq<Reaction>, postId: Id): seq<Reaction> {
    Filter(reactions, OnPost(postId))
  }

  /** Reactions of kind t on post postId. */
  function OfKindOn(postId: Id, t: ReactionType): Reaction -> bool {
    (x: Reaction) => x.postId == postId && x.kind == t
  }

  /** The rows of the reaction table of kind t on post postId, in table order. */
  function ReactionsOfKind(reactions: seq<Reaction>, postId: Id, t: ReactionType): seq<Reaction> {
    Filter(reactions, OfKindOn(postId, t))
  }

  /** The rows whose parent is post postId (the `comments` relation). */
  function CommentsOf(posts: seq<Post>, postId: Id): seq<Post> {
    Filter(posts, (c: Post) => c.parentId == Some(postId))
  }

  predicate IsLike(x: Reaction) { x.kind == LIKE }

  predicate IsRetweet(x: Reaction) { x.kind == RETWEET }

  /** Counting the post's reactions by kind counts the table's rows of that
      kind on that post. */
  lemma KindOfPostReactions(reactions: seq<Reaction>, postId: Id)
    ensures |Filter(ReactionsOn(reactions, postId), IsLike)| == |ReactionsOfKind(reactions, postId, LIKE)|
    ensures |Filter(ReactionsOn(reactions, postId), IsRetweet)| == |ReactionsOfKind(reactions, postId, RETWEET)|
  {
    FilterFilter(reactions, OnPost(postId), IsLike, OfKindOn(postId, LIKE));
    FilterFilter(reactions, OnPost(postId), IsRetweet, OfKindOn(postId, RETWEET));
  }

  /** A post as the lookups return it: with its author, its reactions, the
      number of LIKE and RETWEET reactions and the number of comments. */
  function Extend(users: seq<User>, posts: seq<Post>, reactions: seq<Reaction>, p: Post): (e: ExtendedPost)
    requires HasUser(users, p.authorId)
    ensures e.post == p
    ensures exists u :: u in users && u.id == p.authorId && e.author == ViewOf(u)
    ensures UserIdsUnique(users) ==> forall u :: u in users && u.id == p.authorId ==> e.author == ViewOf(u)
    ensures forall x :: multiset(e.reactions)[x] == if x.postId == p.id then multiset(reactions)[x] else 0
    ensures e.qtyLikes == |ReactionsOfKind(reactions, p.id, LIKE)|
    ensures e.qtyRetweets == |ReactionsOfKind(reactions, p.id, RETWEET)|
    ensures e.qtyLikes + e.qtyRetweets == |e.reactions|
    ensures e.qtyComments == |CommentsOf(posts, p.id)|
  {
    var rs := ReactionsOn(reactions, p.id);
    forall x ensures multiset(rs)[x] == if x.postId == p.id then multiset(reactions)[x] else 0 {
      FilterMultiset(reactions, OnPost(p.id), x);
    }
    FilterPartition(rs, IsLike, IsRetweet);
    KindOfPostReactions(reactions, p.id);
    var author := FindUser(users, p.authorId).value;
    FoundUserIsOnlyOne(users, p.authorId);
    ExtendedPost(
      p,
      ViewOf(author),
      |Filter(rs, IsLike)|,
      |Filter(rs, IsRetweet)|,
      |CommentsOf(posts, p.id)|,
      rs)
  }

  /** The selected rows, each extended, in the order given. */
  function ExtendAll(users: seq<User>, posts: seq<Post>, reactions: seq<Reaction>, selected: seq<Post>): (rows: seq<ExtendedPost>)
    requires forall i :: 0 <= i < |selected| ==> HasUser(users, selected[i].authorId)
    ensures |rows| == |selected|
    ensures forall i :: 0 <= i < |rows| ==> rows[i] == Extend(users, posts, reactions, selected[i])
  {
    seq(|selected|, i requires 0 <= i < |selected| => Extend(users, posts, reactions, selected[i]))
  }

  // ---------------------------------------------------------------- feed

  /** Whether the author user row is public or followed by the viewer. */
  predicate PublicAuthor(users: seq<User>, authorId: Id) {
    exists u :: u in users && u.id == authorId && !u.isPrivate
  }

  predicate FollowedPrivateAuthor(users: seq<User>, follows: set<Follow>, viewerId: Id, authorId: Id) {
    exists u :: u in users && u.id == authorId && u.isPrivate && Follow(viewerId, u.id) in follows
  }

  /** The feed's `where` clause: a top-level post whose author is the viewer,
      or has a public profile, or has a private profile and a follower row
      from the viewer. */
  predicate FeedWhere(users: seq<User>, follows: set<Follow>, viewerId: Id, p: Post) {
    && (p.authorId == viewerId
        || PublicAuthor(users, p.authorId)
        || FollowedPrivateAuthor(users, follows, viewerId, p.authorId))
    && p.kind == POST
  }

  /** `orderBy: [{ createdAt: 'desc' }, { id: 'asc' }]`. */
  predicate FeedOrder(x: Post, y: Post) {
    x.createdAt > y.createdAt || (x.createdAt == y.createdAt && IdLe(x.id, y.id))
  }

  lemma FeedOrderIsTotal(s: seq<Post>)
    ensures TotalPreorderOn(s, FeedOrder)
  {
    forall x, y | x in s && y in s
      ensures FeedOrder(x, y) || FeedOrder(y, x)
    {
      IdLeTotal(x.id, y.id);
    }
    forall x, y, z | x in s && y in s && z in s && FeedOrder(x, y) && FeedOrder(y, z)
      ensures FeedOrder(x, z)
    {
      if x.createdAt == y.createdAt == z.createdAt {
        IdLeTransitive(x.id, y.id, z.id);
      }
    }
  }

  /** The rows the feed selects, newest first and by id among equal stamps. */
  function FeedPosts(users: seq<User>, posts: seq<Post>, follows: set<Follow>, viewerId: Id): (r: seq<Post>)
    ensures SortedBy(r, FeedOrder)
    ensures forall i :: 0 <= i < |r| ==> r[i] in posts
    ensures forall p :: multiset(r)[p] == if FeedWhere(users, follows, viewerId, p) then multiset(posts)[p] else 0
  {
    var keep := (p: Post) => FeedWhere(users, follows, viewerId, p);
    var selected := Filter(posts, keep);
    forall p | true
      ensures multiset(SortBy(selected, FeedOrder))[p] == if keep(p) then multiset(posts)[p] else 0
    {
      FilterMultiset(posts, keep, p);
    }
    FeedOrderIsTotal(selected);
    SortBySorted(selected, FeedOrder);
    var r := SortBy(selected, FeedOrder);
    forall i | 0 <= i < |r| ensures r[i] in posts {
      assert r[i] in multiset(r);
    }
    r
  }

  /** What `getAllByDatePaginated` asks of the database, and the ordered rows
      the page is cut from. */
  datatype FeedPage = FeedPage(args: CursorArgs, rows: seq<ExtendedPost>)

  /** `getAllByDatePaginated(options, userId)`. */
  function GetAllByDatePaginated(users: seq<User>, posts: seq<Post>, follows: set<Follow>, reactions: seq<Reaction>,
                                 options: CursorPagination, userId: Id): (r: FeedPage)
    requires AuthorsExist(users, posts)
    ensures r.args == FindManyCursorArgs(options)
    ensures |r.rows| == |FeedPosts(users, posts, follows, userId)|
    ensures forall i :: 0 <= i < |r.rows| ==> r.rows[i] == Extend(users, posts, reactions, FeedPosts(users, posts, follows, userId)[i])
  {
    var selected := FeedPosts(users, posts, follows, userId);
    FeedPage(FindManyCursorArgs(options), ExtendAll(users, posts, reactions, selected))
  }

  /** A post is in the feed exactly when it is stored and the feed's `where`
      clause accepts it. */
  lemma FeedMembership(users: seq<User>, posts: seq<Post>, follows: set<Follow>, viewerId: Id, p: Post)
    ensures p in FeedPosts(users, posts, follows, viewerId) <==> p in posts && FeedWhere(users, follows, viewerId, p)
  {
    var r := FeedPosts(users, posts, follows, viewerId);
    assert p in r <==> multiset(r)[p] > 0;
    assert p in posts <==> multiset(posts)[p] > 0;
  }

  /** Comments never reach the feed. */
  lemma FeedHasNoComments(users: seq<User>, posts: seq<Post>, follows: set<Follow>, viewerId: Id, i: nat)
    requires i < |FeedPosts(users, posts, follows, viewerId)|
    ensures FeedPosts(users, posts, follows, viewerId)[i].kind == POST
  {
    var r := FeedPosts(users, posts, follows, viewerId);
    FeedMembership(users, posts, follows, viewerId, r[i]);
  }

  // ---------------------------------------------------------------- delete and lookups

  /** Rows other than the one with postId. */
  function IdIsNot(postId: Id): Post -> bool {
    (p: Post) => p.id != postId
  }

  /** The row with postId. */
  function IdIs(postId: Id): Post -> bool {
    (p: Post) => p.id == postId
  }

  /** The post table without the row of that id. */
  function WithoutPost(posts: seq<Post>, postId: Id): (r: seq<Post>)
    ensures !HasPost(r, postId)
    ensures forall p: Post :: p.id != postId ==> multiset(r)[p] == multiset(posts)[p]
  {
    var keep := IdIsNot(postId);
    forall p: Post | p.id != postId
      ensures multiset(Filter(posts, keep))[p] == multiset(posts)[p]
    {
      FilterMultiset(posts, keep, p);
    }
    Filter(posts, keep)
  }

  /** Removing a row keeps the ids unique and every remaining post's author. */
  lemma WithoutPostKeepsValid(users: seq<User>, posts: seq<Post>, postId: Id)
    requires PostIdsUnique(posts) && AuthorsExist(users, posts)
    ensures PostIdsUnique(WithoutPost(posts, postId)) && AuthorsExist(users, WithoutPost(posts, postId))
  {
    var r := WithoutPost(posts, postId);
    var id := (p: Post) => p.id;
    assert KeysUnique(posts, id);
    FilterKeepsKeysUnique(posts, IdIsNot(postId), id);
    assert KeysUnique(r, id);
    forall i | 0 <= i < |r| ensures HasUser(users, r[i].authorId) {
      assert r[i] in multiset(r);
      assert r[i] in posts;
    }
  }

  /** `delete(postId)`: removes the row with that id; the database refuses
      when there is none. */
  method Delete(db: Database, postId: Id) returns (r: Outcome)
    requires db.Valid()
    modifies db`posts
    ensures db.Valid()
    ensures r.Fail? <==> !HasPost(old(db.posts), postId)
    ensures r.Fail? ==> r.error == RecordNotFound && db.posts == old(db.posts)
    ensures r.Pass? ==> db.posts == WithoutPost(old(db.posts), postId)
  {
    if !HasPost(db.posts, postId) {
      return Fail(RecordNotFound);
    }
    WithoutPostKeepsValid(db.users, db.posts, postId);
    db.posts := WithoutPost(db.posts, postId);
    r := Pass;
  }

  /** With unique ids, deleting a stored post removes exactly one row. */
  lemma DeleteRemovesOneRow(posts: seq<Post>, postId: Id)
    requires PostIdsUnique(posts) && HasPost(posts, postId)
    ensures |WithoutPost(posts, postId)| == |posts| - 1
  {
    var k :| 0 <= k < |posts| && posts[k].id == postId;
    FilterPartition(posts, IdIsNot(postId), IdIs(postId));
    OnlyRowWithId(posts, postId, k);
  }

  /** Only row k carries its id, so selecting by that id gives that row alone. */
  lemma {:induction false} OnlyRowWithId(posts: seq<Post>, postId: Id, k: nat)
    requires k < |posts| && posts[k].id == postId
    requires forall i :: 0 <= i < |posts| && i != k ==> posts[i].id != postId
    ensures |Filter(posts, IdIs(postId))| == 1
    decreases |posts|
  {
    if k == 0 {
      NoRowWithId(posts[1..], postId);
    } else {
      OnlyRowWithId(posts[1..], postId, k - 1);
    }
  }

  lemma {:induction false} NoRowWithId(posts: seq<Post>, postId: Id)
    requires forall i :: 0 <= i < |posts| ==> posts[i].id != postId
    ensures Filter(posts, IdIs(postId)) == []
    decreases |posts|
  {
    if posts != [] {
      NoRowWithId(posts[1..], postId);
    }
  }

  /** `getById(postId)`: the post with its author, reactions and counts, or
      null when no post has that id. */
  function GetById(users: seq<User>, posts: seq<Post>, reactions: seq<Reaction>, postId: Id): (r: Option<ExtendedPost>)
    requires AuthorsExist(users, posts)
    ensures r.None? <==> !HasPost(posts, postId)
    ensures r.Some? ==> r.value.post in posts && r.value.post.id == postId
    ensures r.Some? ==> r.value == Extend(users, posts, reactions, FindPost(posts, postId).value)
  {
    match FindPost(posts, postId)
    case None => None
    case Some(p) =>
      assert HasUser(users, p.authorId);
      Some(Extend(users, posts, reactions, p))
  }

  /** The rows written by authorId, of either kind, in table order. */
  function ByAuthor(posts: seq<Post>, authorId: Id): (r: seq<Post>)
    ensures forall p :: p in r <==> p in posts && p.authorId == authorId
  {
    var keep := (p: Post) => p.authorId == authorId;
    forall p ensures p in Filter(posts, keep) <==> p in posts && keep(p) {
      FilterMembership(posts, keep, p);
    }
    Filter(posts, keep)
  }

  /** `getByAuthorId(authorId)`: every row written by authorId, comments
      included, each with its author, reactions and counts. */
  function GetByAuthorId(users: seq<User>, posts: seq<Post>, reactions: seq<Reaction>, authorId: Id): (r: seq<ExtendedPost>)
    requires AuthorsExist(users, posts)
    ensures |r| == |ByAuthor(posts, authorId)|
    ensures forall i :: 0 <= i < |r| ==> r[i] == Extend(users, posts, reactions, ByAuthor(posts, authorId)[i])
  {
    var selected := ByAuthor(posts, authorId);
    forall i | 0 <= i < |selected|
      ensures HasUser(users, selected[i].authorId)
    {
      assert selected[i] in selected;
    }
    ExtendAll(users, posts, reactions, selected)
  }
}

=== FILE: post_service.dfy ===
/** The post service: who may see whose posts, the guarded delete, and the
    replacement of stored image keys by signed URLs before posts are
    returned. */
module PostService {
  import opened Common
  import opened Collections
  import opened Store
  import opened Pagination
  import opened Bucket
  import opened PostRepository
  import UserRepository

  // ---------------------------------------------------------------- visibility

  /** `validateAuthor(userId, authorId)`: the author's posts are visible to
      userId when the author is not private (an unknown author counts as not
      private), or userId follows the author, or userId is the author. */
  function ValidateAuthor(users: seq<User>, follows: set<Follow>, userId: Id, authorId: Id): (r: bool)
    ensures UserIdsUnique(users) ==>
              (r <==> (forall k :: 0 <= k < |users| && users[k].id == authorId ==> !users[k].isPrivate)
                      || Follow(userId, authorId) in follows
                      || userId == authorId)
  {
    var isFollowing := Follow(userId, authorId) in follows;
    var isPrivate := UserRepository.IsPrivateUser(users, authorId);
    assert UserIdsUnique(users) && isPrivate ==> exists k :: 0 <= k < |users| && users[k].id == authorId && users[k].isPrivate;
    !isPrivate || isFollowing || userId == authorId
  }

  /** The feed's `where` clause is the visibility check restricted to
      top-level posts, for every post whose author exists. */
  lemma ValidateAuthorIsFeedFilter(users: seq<User>, follows: set<Follow>, viewerId: Id, p: Post)
    requires UserIdsUnique(users) && HasUser(users, p.authorId)
    ensures FeedWhere(users, follows, viewerId, p) <==> p.kind == POST && ValidateAuthor(users, follows, viewerId, p.authorId)
  {
    var k :| 0 <= k < |users| && users[k].id == p.authorId;
    var u := users[k];
    forall v | v in users && v.id == p.authorId
      ensures v == u
    {
      var j :| 0 <= j < |users| && users[j] == v;
    }
    if !u.isPrivate {
      assert PublicAuthor(users, p.authorId);
    } else if Follow(viewerId, p.authorId) in follows {
      assert FollowedPrivateAuthor(users, follows, viewerId, p.authorId);
    }
  }

  /** Over a valid store the feed holds exactly the visible top-level posts. */
  lemma FeedIsVisiblePosts(users: seq<User>, posts: seq<Post>, follows: set<Follow>, viewerId: Id, p: Post)
    requires UserIdsUnique(users) && AuthorsExist(users, posts)
    ensures p in FeedPosts(users, posts, follows, viewerId) <==>
              p in posts && p.kind == POST && ValidateAuthor(users, follows, viewerId, p.authorId)
  {
    FeedMembership(users, posts, follows, viewerId, p);
    if p in posts {
      var i :| 0 <= i < |posts| && posts[i] == p;
      ValidateAuthorIsFeedFilter(users, follows, viewerId, p);
    }
  }

  /** The check and the feed part ways only for an author with no user row:
      the check lets anyone through, while the feed shows such posts to nobody
      but the author. */
  lemma UnknownAuthorDiffers(users: seq<User>, follows: set<Follow>, viewerId: Id, p: Post)
    requires !HasUser(users, p.authorId) && viewerId != p.authorId
    ensures ValidateAuthor(users, follows, viewerId, p.authorId)
    ensures !FeedWhere(users, follows, viewerId, p)
  {
  }

  // ---------------------------------------------------------------- image URLs

  /** `getImagesUrls(images)`: one read URL per key, in order. */
  method GetImagesUrls(bucket: BucketManager, images: seq<string>) returns (urls: seq<string>)
    modifies bucket`gets
    ensures urls == SignAll(bucket.signGet, images)
    ensures bucket.gets == old(bucket.gets) + images
  {
    if |images| == 0 {
      return [];
    }
    urls := [];
    var i := 0;
    while i < |images|
      invariant 0 <= i <= |images|
      invariant urls == SignAll(bucket.signGet, images[..i])
      invariant bucket.gets == old(bucket.gets) + images[..i]
    {
      var url := bucket.GetImage(images[i]);
      assert images[..i + 1] == images[..i] + [images[i]];
      urls := urls + [url];
      i := i + 1;
    }
    assert images[..i] == images;
  }

  /** `generatePutImagesUrls(images)`: one upload URL per key, in order. */
  method GeneratePutImagesUrls(bucket: BucketManager, images: seq<string>) returns (urls: seq<string>)
    modifies bucket`puts
    ensures urls == SignAll(bucket.signPut, images)
    ensures bucket.puts == old(bucket.puts) + images
  {
    if |images| == 0 {
      return [];
    }
    urls := [];
    var i := 0;
    while i < |images|
      invariant 0 <= i <= |images|
      invariant urls == SignAll(bucket.signPut, images[..i])
      invariant bucket.puts == old(bucket.puts) + images[..i]
    {
      var url := bucket.PutImage(images[i]);
      assert images[..i + 1] == images[..i] + [images[i]];
      urls := urls + [url];
      i := i + 1;
    }
    assert images[..i] == images;
  }

  // ---------------------------------------------------------------- single posts

  /** `createPost(userId, data)`: stores the post and returns it with an
      upload URL in place of each image key. */
  method CreatePost(db: Database, bucket: BucketManager, userId: Id, data: CreatePostInput, id: Id, clock: nat -> nat, createdAt: int)
    returns (r: Result<Post>)
    requires db.Valid() && !HasPost(db.posts, id)
    modifies db`posts, bucket`puts
    ensures db.Valid()
    ensures r.Err? <==> !HasUser(db.users, userId)
    ensures r.Err? ==> r.error == ForeignKeyViolation && db.posts == old(db.posts) && bucket.puts == old(bucket.puts)
    ensures r.Ok? ==>
              var keys := ImageKeys(userId, clock, data.images);
              var stored := Post(id, userId, data.content, keys, None, POST, createdAt);
              && db.posts == old(db.posts) + [stored]
              && r.value == stored.(images := SignAll(bucket.signPut, keys))
              && bucket.puts == old(bucket.puts) + keys
  {
    var created := PostRepository.Create(db, userId, data, id, clock, createdAt);
    if created.Err? {
      return Err(created.error);
    }
    var urls := GeneratePutImagesUrls(bucket, created.value.images);
    r := Ok(created.value.(images := urls));
  }

  /** `deletePost(userId, postId)`: only the author may delete a post. */
  method DeletePost(db: Database, userId: Id, postId: Id) returns (r: Outcome)
    requires db.Valid()
    modifies db`posts
    ensures db.Valid()
    ensures r == Fail(NotFound("post")) <==> !HasPost(old(db.posts), postId)
    ensures r == Fail(Forbidden) <==> HasPost(old(db.posts), postId) && FindPost(old(db.posts), postId).value.authorId != userId
    ensures r.Fail? ==> r.error == NotFound("post") || r.error == Forbidden
    ensures r.Fail? ==> db.posts == old(db.posts)
    ensures r.Pass? ==> db.posts == WithoutPost(old(db.posts), postId)
  {
    var post := PostRepository.GetById(db.users, db.posts, db.reactions, postId);
    if post.None? {
      return Fail(NotFound("post"));
    }
    if post.value.post.authorId != userId {
      return Fail(Forbidden);
    }
    r := PostRepository.Delete(db, postId);
  }

  /** The author deleting a stored post removes exactly that row. */
  method DeleteOwnPost(db: Database, postId: Id) returns (r: Outcome)
    requires db.Valid() && HasPost(db.posts, postId)
    modifies db`posts
    ensures r.Pass? && !HasPost(db.posts, postId)
    ensures |db.posts| == |old(db.posts)| - 1
    ensures forall p: Post :: p.id != postId ==> multiset(db.posts)[p] == multiset(old(db.posts))[p]
  {
    var author := FindPost(db.posts, postId).value.authorId;
    DeleteRemovesOneRow(db.posts, postId);
    r := DeletePost(db, author, postId);
  }

  /** `getPost(userId, postId)`: the post with read URLs for its images. A
      post the user may not see is reported as missing, never as forbidden;
      the author's picture is returned as stored. */
  method GetPost(db: Database, bucket: BucketManager, userId: Id, postId: Id) returns (r: Result<ExtendedPost>)
    requires AuthorsExist(db.users, db.posts)
    modifies bucket`gets
    ensures r.Err? <==> !HasPost(db.posts, postId) ||
                        !ValidateAuthor(db.users, db.follows, userId, FindPost(db.posts, postId).value.authorId)
    ensures r.Err? ==> r.error == NotFound("post") && bucket.gets == old(bucket.gets)
    ensures r.Ok? ==>
              var e := GetById(db.users, db.posts, db.reactions, postId).value;
              && r.value == e.(post := e.post.(images := SignAll(bucket.signGet, e.post.images)))
              && bucket.gets == old(bucket.gets) + e.post.images
  {
    var post := PostRepository.GetById(db.users, db.posts, db.reactions, postId);
    if post.None? {
      return Err(NotFound("post"));
    }
    var accessible := ValidateAuthor(db.users, db.follows, userId, post.value.post.authorId);
    if !accessible {
      return Err(NotFound("post"));
    }
    var e := post.value;
    var urls := GetImagesUrls(bucket, e.post.images);
    r := Ok(e.(post := e.post.(images := urls)));
  }

  // ---------------------------------------------------------------- lists of posts

  /** A listed post as returned: read URLs for its images and for a non-empty
      author picture; an empty or missing picture becomes null. */
  function ResolvedPost(sign: string -> string, e: ExtendedPost): ExtendedPost {
    e.(post := e.post.(images := SignAll(sign, e.post.images)),
       author := e.author.(profilePicture := Resolved(sign, e.author.profilePicture)))
  }

  function ResolvedPosts(sign: string -> string, es: seq<ExtendedPost>): seq<ExtendedPost> {
    seq(|es|, i requires 0 <= i < |es| => ResolvedPost(sign, es[i]))
  }

  /** The keys signed while resolving a list: each post's images, then its
      author's picture key when it is non-empty. */
  function FeedImageKeys(es: seq<ExtendedPost>): seq<string>
    decreases |es|
  {
    if es == [] then []
    else
      var last := es[|es| - 1];
      FeedImageKeys(es[..|es| - 1]) + last.post.images + PictureKeys(last.author.profilePicture)
  }

  /** The number of images over the list. */
  function TotalImages(es: seq<ExtendedPost>): nat
    decreases |es|
  {
    if es == [] then 0 else TotalImages(es[..|es| - 1]) + |es[|es| - 1].post.images|
  }

  predicate AuthorHasPicture(e: ExtendedPost) {
    Truthy(e.author.profilePicture)
  }

  /** Resolving a list signs as many URLs as it has images, plus one per post
      whose author has a non-empty picture key. */
  lemma {:induction false} FeedImageKeysCount(es: seq<ExtendedPost>)
    ensures |FeedImageKeys(es)| == TotalImages(es) + |Filter(es, AuthorHasPicture)|
    decreases |es|
  {
    if es != [] {
      var init := es[..|es| - 1];
      FeedImageKeysCount(init);
      assert es == init + [es[|es| - 1]];
      FilterAppend(init, es[|es| - 1], AuthorHasPicture);
    }
  }

  /** Resolution keeps the list's length and order and changes nothing but
      the image URLs and the author's picture; a picture is signed exactly
      when its key is non-empty. */
  lemma ResolvedPostsKeepRows(sign: string -> string, es: seq<ExtendedPost>, i: nat)
    requires i < |es|
    ensures |ResolvedPosts(sign, es)| == |es|
    ensures var e := ResolvedPosts(sign, es)[i];
            && e.post.(images := es[i].post.images) == es[i].post
            && |e.post.images| == |es[i].post.images|
            && e.author.(profilePicture := es[i].author.profilePicture) == es[i].author
            && (e.author.profilePicture.Some? <==> Truthy(es[i].author.profilePicture))
            && e.qtyLikes == es[i].qtyLikes && e.qtyRetweets == es[i].qtyRetweets && e.qtyComments == es[i].qtyComments
  {
  }

  /** The keys of a prefix one post longer: that post's images, then its
      author's picture key. */
  lemma FeedImageKeysStep(es: seq<ExtendedPost>, i: nat)
    requires i < |es|
    ensures FeedImageKeys(es[..i + 1])
         == FeedImageKeys(es[..i]) + es[i].post.images + PictureKeys(es[i].author.profilePicture)
  {
    assert es[..i + 1][..i] == es[..i];
  }

  /** The same step after the keys signed before the list. */
  lemma SignedKeysStep(before: seq<string>, es: seq<ExtendedPost>, i: nat)
    requires i < |es|
    ensures before + FeedImageKeys(es[..i]) + es[i].post.images + PictureKeys(es[i].author.profilePicture)
         == before + FeedImageKeys(es[..i + 1])
  {
    var keys := FeedImageKeys(es[..i]);
    var images := es[i].post.images;
    var picture := PictureKeys(es[i].author.profilePicture);
    FeedImageKeysStep(es, i);
    assert before + keys + images + picture == before + (keys + images + picture);
  }

  /** One turn of the loop: the post's image URLs, then its author's picture. */
  method ResolvePost(bucket: BucketManager, e: ExtendedPost) returns (resolved: ExtendedPost)
    modifies bucket`gets
    ensures resolved == ResolvedPost(bucket.signGet, e)
    ensures bucket.gets == old(bucket.gets) + e.post.images + PictureKeys(e.author.profilePicture)
  {
    var urls := GetImagesUrls(bucket, e.post.images);
    var pic := ResolvePicture(bucket, e.author.profilePicture);
    resolved := e.(post := e.post.(images := urls), author := e.author.(profilePicture := pic));
  }

  /** The first i posts of r are resolved and the rest are as listed. */
  predicate ResolvedUpTo(sign: string -> string, posts: seq<ExtendedPost>, r: seq<ExtendedPost>, i: nat) {
    && i <= |r| == |posts|
    && (forall k :: 0 <= k < i ==> r[k] == ResolvedPost(sign, posts[k]))
    && (forall k :: i <= k < |r| ==> r[k] == posts[k])
  }

  /** Resolving post i in place extends the resolved prefix by one. */
  lemma ResolvedUpToStep(sign: string -> string, posts: seq<ExtendedPost>, r: seq<ExtendedPost>, i: nat)
    requires ResolvedUpTo(sign, posts, r, i) && i < |r|
    ensures ResolvedUpTo(sign, posts, r[i := ResolvedPost(sign, r[i])], i + 1)
  {
  }

  /** Once every post is resolved the list is the resolved list. */
  lemma ResolvedUpToEnd(sign: string -> string, posts: seq<ExtendedPost>, r: seq<ExtendedPost>)
    requires ResolvedUpTo(sign, posts, r, |r|)
    ensures r == ResolvedPosts(sign, posts)
  {
  }

  /** The loop over a list of posts that rewrites, in place, each post's
      images and its author's picture. */
  method ResolvePosts(bucket: BucketManager, posts: seq<ExtendedPost>) returns (r: seq<ExtendedPost>)
    modifies bucket`gets
    ensures r == ResolvedPosts(bucket.signGet, posts)
    ensures bucket.gets == old(bucket.gets) + FeedImageKeys(posts)
  {
    var sign := bucket.signGet;
    r := posts;
    var i := 0;
    while i < |r|
      invariant ResolvedUpTo(sign, posts, r, i)
      invariant bucket.gets == old(bucket.gets) + FeedImageKeys(posts[..i])
    {
      ResolvedUpToStep(sign, posts, r, i);
      SignedKeysStep(old(bucket.gets), posts, i);
      var e := ResolvePost(bucket, r[i]);
      r := r[i := e];
      i := i + 1;
    }
    ResolvedUpToEnd(sign, posts, r);
    assert posts[..i] == posts;
  }

  /** `getLatestPosts(userId, options)`: the feed rows with URLs resolved. */
  method GetLatestPosts(db: Database, bucket: BucketManager, userId: Id, options: CursorPagination)
    returns (r: seq<ExtendedPost>)
    requires AuthorsExist(db.users, db.posts)
    modifies bucket`gets
    ensures var page := GetAllByDatePaginated(db.users, db.posts, db.follows, db.reactions, options, userId);
            && r == ResolvedPosts(bucket.signGet, page.rows)
            && bucket.gets == old(bucket.gets) + FeedImageKeys(page.rows)
  {
    var page := GetAllByDatePaginated(db.users, db.posts, db.follows, db.reactions, options, userId);
    r := ResolvePosts(bucket, page.rows);
  }

  /** `getPostsByAuthor(userId, authorId)`: the access check comes first; a
      refused user gets "post not found" before any post is read or any URL
      signed. */
  method GetPostsByAuthor(db: Database, bucket: BucketManager, userId: Id, authorId: Id)
    returns (r: Result<seq<ExtendedPost>>)
    requires AuthorsExist(db.users, db.posts)
    modifies bucket`gets
    ensures r.Err? <==> !ValidateAuthor(db.users, db.follows, userId, authorId)
    ensures r.Err? ==> r.error == NotFound("post") && bucket.gets == old(bucket.gets)
    ensures r.Ok? ==>
              var rows := GetByAuthorId(db.users, db.posts, db.reactions, authorId);
              && r.value == ResolvedPosts(bucket.signGet, rows)
              && bucket.gets == old(bucket.gets) + FeedImageKeys(rows)
  {
    var accessible := ValidateAuthor(db.users, db.follows, userId, authorId);
    if !accessible {
      return Err(NotFound("post"));
    }
    var rows := GetByAuthorId(db.users, db.posts, db.reactions, authorId);
    var resolved := ResolvePosts(bucket, rows);
    r := Ok(resolved);
  }
}

=== FILE: reaction_repository.dfy ===
/** The reaction repository: LIKE and RETWEET rows of a user on a post.
    Inserts do not look for an existing row, so the table is a bag of rows;
    deletions remove every matching row. */
module ReactionRepository {
  import opened Common
  import opened Store
  import opened Collections

  /** The row r is a reaction of type t by userId on postId. */
  predicate Matches(r: Reaction, userId: Id, postId: Id, t: ReactionType) {
    r.userId == userId && r.postId == postId && r.kind == t
  }

  /** Whether some row matches (a `findFirst` that is not null). */
  predicate Exists(reactions: seq<Reaction>, userId: Id, postId: Id, t: ReactionType) {
    exists i :: 0 <= i < |reactions| && Matches(reactions[i], userId, postId, t)
  }

  /** The rows `deleteMany` leaves in place: those that do not match. */
  function KeepOthers(userId: Id, postId: Id, t: ReactionType): Reaction -> bool {
    (x: Reaction) => !Matches(x, userId, postId, t)
  }

  /** The table after `deleteMany` of the rows of type t by userId on postId. */
  function Without(reactions: seq<Reaction>, userId: Id, postId: Id, t: ReactionType): (r: seq<Reaction>)
    ensures !Exists(r, userId, postId, t)
    ensures forall x :: !Matches(x, userId, postId, t) ==> multiset(r)[x] == multiset(reactions)[x]
  {
    var keep := KeepOthers(userId, postId, t);
    var r := Filter(reactions, keep);
    forall x | !Matches(x, userId, postId, t)
      ensures multiset(r)[x] == multiset(reactions)[x]
    {
      FilterMultiset(reactions, keep, x);
    }
    r
  }

  /** `checkLike(userId, postId)`. */
  function CheckLike(reactions: seq<Reaction>, userId: Id, postId: Id): (r: bool)
    ensures r <==> Reaction(userId, postId, LIKE) in reactions
  {
    Exists(reactions, userId, postId, LIKE)
  }

  /** `checkRetweet(userId, postId)`. */
  function CheckRetweet(reactions: seq<Reaction>, userId: Id, postId: Id): (r: bool)
    ensures r <==> Reaction(userId, postId, RETWEET) in reactions
  {
    Exists(reactions, userId, postId, RETWEET)
  }

  /** `like(userId, postId)`: one more LIKE row. */
  method Like(db: Database, userId: Id, postId: Id)
    modifies db`reactions
    ensures db.reactions == old(db.reactions) + [Reaction(userId, postId, LIKE)]
  {
    db.reactions := db.reactions + [Reaction(userId, postId, LIKE)];
  }

  /** `retweet(userId, postId)`: one more RETWEET row. */
  method Retweet(db: Database, userId: Id, postId: Id)
    modifies db`reactions
    ensures db.reactions == old(db.reactions) + [Reaction(userId, postId, RETWEET)]
  {
    db.reactions := db.reactions + [Reaction(userId, postId, RETWEET)];
  }

  /** `dislike(userId, postId)`: removes that user's LIKE rows on that post. */
  method Dislike(db: Database, userId: Id, postId: Id)
    modifies db`reactions
    ensures db.reactions == Without(old(db.reactions), userId, postId, LIKE)
  {
    db.reactions := Without(db.reactions, userId, postId, LIKE);
  }

  /** `unretweet(userId, postId)`: removes that user's RETWEET rows on that post. */
  method Unretweet(db: Database, userId: Id, postId: Id)
    modifies db`reactions
    ensures db.reactions == Without(old(db.reactions), userId, postId, RETWEET)
  {
    db.reactions := Without(db.reactions, userId, postId, RETWEET);
  }

  /** Removing LIKE rows keeps the RETWEET rows, and the rows of every other
      user and post, exactly as often as before. */
  lemma DislikeKeepsOtherRows(reactions: seq<Reaction>, userId: Id, postId: Id, x: Reaction)
    requires x.kind == RETWEET || x.userId != userId || x.postId != postId
    ensures multiset(Without(reactions, userId, postId, LIKE))[x] == multiset(reactions)[x]
    ensures CheckRetweet(Without(reactions, userId, postId, LIKE), userId, postId) == CheckRetweet(reactions, userId, postId)
  {
    var r := Without(reactions, userId, postId, LIKE);
    var rt := Reaction(userId, postId, RETWEET);
    assert rt in r <==> multiset(r)[rt] > 0;
    assert rt in reactions <==> multiset(reactions)[rt] > 0;
  }

  /** Removing RETWEET rows keeps the LIKE rows exactly as often as before. */
  lemma UnretweetKeepsLikes(reactions: seq<Reaction>, userId: Id, postId: Id)
    ensures CheckLike(Without(reactions, userId, postId, RETWEET), userId, postId) == CheckLike(reactions, userId, postId)
    ensures multiset(Without(reactions, userId, postId, RETWEET))[Reaction(userId, postId, LIKE)]
         == multiset(reactions)[Reaction(userId, postId, LIKE)]
  {
    var r := Without(reactions, userId, postId, RETWEET);
    var lk := Reaction(userId, postId, LIKE);
    assert lk in r <==> multiset(r)[lk] > 0;
    assert lk in reactions <==> multiset(reactions)[lk] > 0;
  }
}

=== FILE: reaction_service.dfy ===
/** The reaction service: each operation asks the repository whether the
    user already LIKEs the post, then raises a conflict or performs one
    write. All four consult the LIKE rows, retweet and unretweet included. */
module ReactionService {
  import opened Common
  import opened Store
  import opened Collections
  import opened ReactionRepository
  import PostRepository

  method Like(db: Database, userId: Id, postId: Id) returns (r: Outcome)
    modifies db`reactions
    ensures r.Fail? <==> CheckLike(old(db.reactions), userId, postId)
    ensures r.Fail? ==> r.error == Conflict("ALREADY_LIKED") && db.reactions == old(db.reactions)
    ensures r.Pass? ==> db.reactions == old(db.reactions) + [Reaction(userId, postId, LIKE)]
  {
    var liked := CheckLike(db.reactions, userId, postId);
    if liked {
      return Fail(Conflict("ALREADY_LIKED"));
    }
    ReactionRepository.Like(db, userId, postId);
    r := Pass;
  }

  /** Refused when the user LIKEs the post, whatever the RETWEET rows say. */
  method Retweet(db: Database, userId: Id, postId: Id) returns (r: Outcome)
    modifies db`reactions
    ensures r.Fail? <==> CheckLike(old(db.reactions), userId, postId)
    ensures r.Fail? ==> r.error == Conflict("ALREADY_RETWEETED") && db.reactions == old(db.reactions)
    ensures r.Pass? ==> db.reactions == old(db.reactions) + [Reaction(userId, postId, RETWEET)]
  {
    var retweeted := CheckLike(db.reactions, userId, postId);
    if retweeted {
      return Fail(Conflict("ALREADY_RETWEETED"));
    }
    ReactionRepository.Retweet(db, userId, postId);
    r := Pass;
  }

  /** Refused when the user does not LIKE the post, whatever the RETWEET rows say. */
  method Unretweet(db: Database, userId: Id, postId: Id) returns (r: Outcome)
    modifies db`reactions
    ensures r.Fail? <==> !CheckLike(old(db.reactions), userId, postId)
    ensures r.Fail? ==> r.error == Conflict("NOT_RETWEETED") && db.reactions == old(db.reactions)
    ensures r.Pass? ==> db.reactions == Without(old(db.reactions), userId, postId, RETWEET)
  {
    var retweeted := CheckLike(db.reactions, userId, postId);
    if !retweeted {
      return Fail(Conflict("NOT_RETWEETED"));
    }
    ReactionRepository.Unretweet(db, userId, postId);
    r := Pass;
  }

  method Dislike(db: Database, userId: Id, postId: Id) returns (r: Outcome)
    modifies db`reactions
    ensures r.Fail? <==> !CheckLike(old(db.reactions), userId, postId)
    ensures r.Fail? ==> r.error == Conflict("NOT_LIKED") && db.reactions == old(db.reactions)
    ensures r.Pass? ==> db.reactions == Without(old(db.reactions), userId, postId, LIKE)
  {
    var liked := CheckLike(db.reactions, userId, postId);
    if !liked {
      return Fail(Conflict("NOT_LIKED"));
    }
    ReactionRepository.Dislike(db, userId, postId);
    r := Pass;
  }

  /** The second of two likes in a row is refused and writes nothing. */
  method LikeTwice(db: Database, userId: Id, postId: Id) returns (first: Outcome, second: Outcome)
    modifies db`reactions
    ensures second == Fail(Conflict("ALREADY_LIKED"))
    ensures CheckLike(db.reactions, userId, postId)
  {
    first := Like(db, userId, postId);
    second := Like(db, userId, postId);
  }

  /** A post the user has not liked can be retweeted twice, leaving two RETWEET rows. */
  method RetweetTwice(db: Database, userId: Id, postId: Id) returns (first: Outcome, second: Outcome)
    requires !CheckLike(db.reactions, userId, postId)
    modifies db`reactions
    ensures first.Pass? && second.Pass?
    ensures multiset(db.reactions)[Reaction(userId, postId, RETWEET)]
         == multiset(old(db.reactions))[Reaction(userId, postId, RETWEET)] + 2
  {
    first := Retweet(db, userId, postId);
    assert db.reactions[..|db.reactions| - 1] == old(db.reactions);
    second := Retweet(db, userId, postId);
  }

  /** Undoing a retweet the user made is refused unless the user also likes the post. */
  method UnretweetWithoutLike(db: Database, userId: Id, postId: Id) returns (r: Outcome)
    requires CheckRetweet(db.reactions, userId, postId) && !CheckLike(db.reactions, userId, postId)
    modifies db`reactions
    ensures r == Fail(Conflict("NOT_RETWEETED"))
    ensures CheckRetweet(db.reactions, userId, postId)
  {
    r := Unretweet(db, userId, postId);
  }

  // ---------------------------------------------------------------- counts

  /** One more row x changes the count of kind t2 on post q by one exactly
      when x is such a row. */
  lemma AppendKindCount(reactions: seq<Reaction>, x: Reaction, q: Id, t2: ReactionType)
    ensures |PostRepository.ReactionsOfKind(reactions + [x], q, t2)|
         == |PostRepository.ReactionsOfKind(reactions, q, t2)| + (if x.postId == q && x.kind == t2 then 1 else 0)
  {
    FilterAppend(reactions, x, PostRepository.OfKindOn(q, t2));
  }

  /** Removing userId's rows of kind t on post postId lowers the count of
      kind t2 on post q by the number of rows removed when (q, t2) is
      (postId, t), and leaves it as it was otherwise. */
  lemma WithoutKindCount(reactions: seq<Reaction>, userId: Id, postId: Id, t: ReactionType, q: Id, t2: ReactionType)
    ensures |PostRepository.ReactionsOfKind(Without(reactions, userId, postId, t), q, t2)|
            + (if q == postId && t2 == t then multiset(reactions)[Reaction(userId, postId, t)] else 0)
         == |PostRepository.ReactionsOfKind(reactions, q, t2)|
  {
    var m := Reaction(userId, postId, t);
    FilterDropped(reactions, KeepOthers(userId, postId, t), PostRepository.OfKindOn(q, t2), m);
  }

  /** A like the service writes on post postId adds one to that post's like
      count; every other count of every post stays as it was. */
  lemma LikeCountsOneMore(users: seq<User>, posts: seq<Post>, reactions: seq<Reaction>, userId: Id, postId: Id, p: Post)
    requires HasUser(users, p.authorId)
    ensures var before := PostRepository.Extend(users, posts, reactions, p);
            var after := PostRepository.Extend(users, posts, reactions + [Reaction(userId, postId, LIKE)], p);
            && after.qtyLikes == before.qtyLikes + (if p.id == postId then 1 else 0)
            && after.qtyRetweets == before.qtyRetweets
            && after.qtyComments == before.qtyComments
  {
    AppendKindCount(reactions, Reaction(userId, postId, LIKE), p.id, LIKE);
    AppendKindCount(reactions, Reaction(userId, postId, LIKE), p.id, RETWEET);
  }

  /** A retweet the service writes on post postId adds one to that post's
      retweet count; every other count of every post stays as it was. */
  lemma RetweetCountsOneMore(users: seq<User>, posts: seq<Post>, reactions: seq<Reaction>, userId: Id, postId: Id, p: Post)
    requires HasUser(users, p.authorId)
    ensures var before := PostRepository.Extend(users, posts, reactions, p);
            var after := PostRepository.Extend(users, posts, reactions + [Reaction(userId, postId, RETWEET)], p);
            && after.qtyLikes == before.qtyLikes
            && after.qtyRetweets == before.qtyRetweets + (if p.id == postId then 1 else 0)
            && after.qtyComments == before.qtyComments
  {
    AppendKindCount(reactions, Reaction(userId, postId, RETWEET), p.id, LIKE);
    AppendKindCount(reactions, Reaction(userId, postId, RETWEET), p.id, RETWEET);
  }

  /** A dislike on post postId takes every like of that user off that post's
      like count; every other count of every post stays as it was. */
  lemma DislikeDropsUsersLikes(users: seq<User>, posts: seq<Post>, reactions: seq<Reaction>, userId: Id, postId: Id, p: Post)
    requires HasUser(users, p.authorId)
    ensures var before := PostRepository.Extend(users, posts, reactions, p);
            var after := PostRepository.Extend(users, posts, Without(reactions, userId, postId, LIKE), p);
            && after.qtyLikes == before.qtyLikes - (if p.id == postId then multiset(reactions)[Reaction(userId, postId, LIKE)] else 0)
            && after.qtyRetweets == before.qtyRetweets
            && after.qtyComments == before.qtyComments
  {
    WithoutKindCount(reactions, userId, postId, LIKE, p.id, LIKE);
    WithoutKindCount(reactions, userId, postId, LIKE, p.id, RETWEET);
  }

  /** An unretweet on post postId takes every retweet of that user off that
      post's retweet count; every other count of every post stays as it was. */
  lemma UnretweetDropsUsersRetweets(users: seq<User>, posts: seq<Post>, reactions: seq<Reaction>, userId: Id, postId: Id, p: Post)
    requires HasUser(users, p.authorId)
    ensures var before := PostRepository.Extend(users, posts, reactions, p);
            var after := PostRepository.Extend(users, posts, Without(reactions, userId, postId, RETWEET), p);
            && after.qtyLikes == before.qtyLikes
            && after.qtyRetweets == before.qtyRetweets - (if p.id == postId then multiset(reactions)[Reaction(userId, postId, RETWEET)] else 0)
            && after.qtyComments == before.qtyComments
  {
    WithoutKindCount(reactions, userId, postId, RETWEET, p.id, LIKE);
    WithoutKindCount(reactions, userId, postId, RETWEET, p.id, RETWEET);
  }
}

=== FILE: socket_service.dfy ===
/** The socket service: the mutual-follow test that gates direct messages,
    and the storing of a message. */
module SocketService {
  import opened Common
  import opened Store
  import opened FollowRepository
  import MessageRepository

  /** `checkFollows(a, b)`: a follows b and b follows a. */
  function CheckFollows(follows: set<Follow>, userIdA: Id, userIdB: Id): (r: bool)
    ensures r <==> Follow(userIdA, userIdB) in follows && Follow(userIdB, userIdA) in follows
  {
    CheckFollow(follows, userIdA, userIdB) && CheckFollow(follows, userIdB, userIdA)
  }

  /** The order of the two users does not matter. */
  lemma CheckFollowsSymmetric(follows: set<Follow>, a: Id, b: Id)
    ensures CheckFollows(follows, a, b) == CheckFollows(follows, b, a)
  {
  }

  /** A follow in one direction only is not enough. */
  lemma OneWayFollowRefused(follows: set<Follow>, a: Id, b: Id)
    requires Follow(a, b) in follows && Follow(b, a) !in follows
    ensures !CheckFollows(follows, a, b) && !CheckFollows(follows, b, a)
  {
  }

  /** `createMessage(senderId, data)`: the repository's insert, unchanged. */
  method CreateMessage(db: Database, senderId: Id, data: MessageRepository.CreateMessageInput, createdAt: int)
    returns (m: Message)
    modifies db`messages
    ensures m == Message(senderId, data.receiverId, data.content, createdAt)
    ensures db.messages == old(db.messages) + [m]
  {
    m := MessageRepository.Create(db, senderId, data, createdAt);
  }
}

=== FILE: store.dfy ===
/** The relational store behind the repositories: five tables held by one
    `Database` object. Posts and comments share the post table and are told
    apart by their kind and their parent reference. */
module Store {
  import opened Common
  import opened Collections

  datatype PostKind = POST | COMMENT

  datatype Post = Post(
    id: Id,
    authorId: Id,
    content: string,
    images: seq<string>,     // object-storage keys
    parentId: Option<Id>,    // the commented post, for a comment
    kind: PostKind,
    createdAt: int)

  datatype User = User(
    id: Id,
    name: Option<string>,
    username: string,
    isPrivate: bool,
    profilePicture: Option<string>)   // object-storage key

  /** The public fields of a user, as lookups and post authors return them. */
  datatype UserView = UserView(id: Id, name: Option<string>, username: string, profilePicture: Option<string>)

  function ViewOf(u: User): UserView {
    UserView(u.id, u.name, u.username, u.profilePicture)
  }

  /** A row of the follow table: followerId follows followedId. */
  datatype Follow = Follow(followerId: Id, followedId: Id)

  datatype ReactionType = LIKE | RETWEET

  datatype Reaction = Reaction(userId: Id, postId: Id, kind: ReactionType)

  datatype Message = Message(senderId: Id, receiverId: Id, content: string, createdAt: int)

  predicate HasUser(users: seq<User>, id: Id) {
    exists i :: 0 <= i < |users| && users[i].id == id
  }

  predicate HasPost(posts: seq<Post>, id: Id) {
    exists i :: 0 <= i < |posts| && posts[i].id == id
  }

  /** `findUnique({ where: { id } })` on the user table. */
  function FindUser(users: seq<User>, id: Id): (r: Option<User>)
    ensures r.Some? <==> HasUser(users, id)
    ensures r.Some? ==> r.value in users && r.value.id == id
  {
    FindFirst(users, (u: User) => u.id == id)
  }

  /** With unique ids, the user found is the only row with that id. */
  lemma FoundUserIsOnlyOne(users: seq<User>, id: Id)
    requires HasUser(users, id)
    ensures UserIdsUnique(users) ==> forall u :: u in users && u.id == id ==> u == FindUser(users, id).value
  {
    if UserIdsUnique(users) {
      var found := FindUser(users, id).value;
      forall u | u in users && u.id == id ensures u == found {
        var i :| 0 <= i < |users| && users[i] == u;
        var j :| 0 <= j < |users| && users[j] == found;
        assert i == j;
      }
    }
  }

  /** `findUnique({ where: { id } })` on the post table. */
  function FindPost(posts: seq<Post>, id: Id): (r: Option<Post>)
    ensures r.Some? <==> HasPost(posts, id)
    ensures r.Some? ==> r.value in posts && r.value.id == id
  {
    FindFirst(posts, (p: Post) => p.id == id)
  }

  predicate UserIdsUnique(users: seq<User>) {
    forall i, j :: 0 <= i < j < |users| ==> users[i].id != users[j].id
  }

  predicate PostIdsUnique(posts: seq<Post>) {
    forall i, j :: 0 <= i < j < |posts| ==> posts[i].id != posts[j].id
  }

  /** Every post names an existing author (the post-to-author relation). */
  predicate AuthorsExist(users: seq<User>, posts: seq<Post>) {
    forall i :: 0 <= i < |posts| ==> HasUser(users, posts[i].authorId)
  }

  class Database {
    var users: seq<User>
    var posts: seq<Post>
    var follows: set<Follow>
    var reactions: seq<Reaction>
    var messages: seq<Message>

    /** The constraints the schema keeps: primary keys and the author relation. */
    predicate Valid()
      reads this
    {
      UserIdsUnique(users) && PostIdsUnique(posts) && AuthorsExist(users, posts)
    }

    /** A database holding the given users and nothing else. */
    constructor (users: seq<User>)
      requires UserIdsUnique(users)
      ensures Valid()
      ensures this.users == users && posts == [] && follows == {} && reactions == [] && messages == []
    {
      this.users := users;
      posts := [];
      follows := {};
      reactions := [];
      messages := [];
    }
  }
}

=== FILE: strings.dfy ===
/** The string operations the services rely on, with JavaScript's meaning:
    prefix and suffix tests, substring search, ASCII case folding, the
    decimal rendering of a number inside a template literal, and
    `String.prototype.split` with a one-character separator. */
module Strings {

  predicate StartsWith(s: string, prefix: string) {
    |prefix| <= |s| && s[..|prefix|] == prefix
  }

  predicate EndsWith(s: string, suffix: string) {
    |suffix| <= |s| && s[|s| - |suffix|..] == suffix
  }

  /** `s.includes(q)`, as the database's `contains` filter reads it (case-sensitive). */
  predicate Contains(s: string, q: string)
    decreases |s|
  {
    StartsWith(s, q) || (s != [] && Contains(s[1..], q))
  }

  /** q occurs in s at position i. */
  predicate OccursAt(s: string, q: string, i: int) {
    0 <= i <= |s| - |q| && s[i..i + |q|] == q
  }

  /** Contains agrees with the definition by an occurrence position. */
  lemma {:induction false} ContainsAt(s: string, q: string)
    ensures Contains(s, q) <==> exists i :: OccursAt(s, q, i)
    decreases |s|
  {
    if StartsWith(s, q) {
      assert OccursAt(s, q, 0);
    } else if s == [] {
    } else {
      ContainsAt(s[1..], q);
      if Contains(s[1..], q) {
        var i :| OccursAt(s[1..], q, i);
        assert s[i + 1..i + 1 + |q|] == s[1..][i..i + |q|];
        assert OccursAt(s, q, i + 1);
      }
      assert !OccursAt(s, q, 0);
      if i :| OccursAt(s, q, i) {
        assert s[1..][i - 1..i - 1 + |q|] == s[i..i + |q|];
        assert OccursAt(s[1..], q, i - 1);
      }
    }
  }

  /** The case folding of the regular-expression flag `i` on ASCII letters
      (non-ASCII characters never fold onto ASCII ones without the `u` flag). */
  function LowerChar(c: char): char {
    if 'A' <= c <= 'Z' then (c as int + 32) as char else c
  }

  function Lower(s: string): (r: string)
    ensures |r| == |s|
  {
    seq(|s|, i requires 0 <= i < |s| => LowerChar(s[i]))
  }

  lemma LowerSlice(s: string, a: nat, b: nat)
    requires a <= b <= |s|
    ensures Lower(s)[a..b] == Lower(s[a..b])
  {
  }

  predicate IsDigit(c: char) {
    '0' <= c <= '9'
  }

  predicate AllDigits(s: string) {
    forall i :: 0 <= i < |s| ==> IsDigit(s[i])
  }

  function DigitChar(d: nat): (c: char)
    requires d < 10
    ensures IsDigit(c)
  {
    (48 + d) as char
  }

  /** `${n}` for a non-negative integer: its decimal digits, without leading zeros. */
  function NatToString(n: nat): (r: string)
    ensures |r| >= 1 && AllDigits(r)
    ensures (r[0] == '0') == (n == 0)
    decreases n
  {
    if n < 10 then [DigitChar(n)] else NatToString(n / 10) + [DigitChar(n % 10)]
  }

  /** The value of a string of decimal digits. */
  function ParseDecimal(s: string): nat
    requires AllDigits(s)
    decreases |s|
  {
    if s == [] then 0 else ParseDecimal(s[..|s| - 1]) * 10 + (s[|s| - 1] as int - 48)
  }

  /** Reading back the rendering of n gives n. */
  lemma {:induction false} ParseNatToString(n: nat)
    ensures ParseDecimal(NatToString(n)) == n
    decreases n
  {
    var r := NatToString(n);
    if n >= 10 {
      ParseNatToString(n / 10);
      assert r[..|r| - 1] == NatToString(n / 10);
    }
  }

  /** Distinct numbers render differently. */
  lemma NatToStringInjective(a: nat, b: nat)
    requires NatToString(a) == NatToString(b)
    ensures a == b
  {
    ParseNatToString(a);
    ParseNatToString(b);
  }

  /** The number of leading digits of s. */
  function DigitPrefixLength(s: string): nat
    decreases |s|
  {
    if s != [] && IsDigit(s[0]) then 1 + DigitPrefixLength(s[1..]) else 0
  }

  lemma {:induction false} DigitPrefixLengthOf(d: string, n: string)
    requires AllDigits(d)
    requires n == [] || !IsDigit(n[0])
    ensures DigitPrefixLength(d + n) == |d|
    decreases |d|
  {
    if d == [] {
      assert d + n == n;
    } else {
      assert (d + n)[1..] == d[1..] + n;
      DigitPrefixLengthOf(d[1..], n);
    }
  }

  /** A run of digits followed by a part that does not start with a digit is
      delimited uniquely: the digit run is the longest digit prefix. */
  lemma DigitRunUnique(d1: string, n1: string, d2: string, n2: string)
    requires AllDigits(d1) && AllDigits(d2)
    requires n1 == [] || !IsDigit(n1[0])
    requires n2 == [] || !IsDigit(n2[0])
    requires d1 + n1 == d2 + n2
    ensures d1 == d2 && n1 == n2
  {
    DigitPrefixLengthOf(d1, n1);
    DigitPrefixLengthOf(d2, n2);
    assert d1 == (d1 + n1)[..|d1|] && n1 == (d1 + n1)[|d1|..];
    assert d2 == (d2 + n2)[..|d2|] && n2 == (d2 + n2)[|d2|..];
  }

  /** `s.split(sep)`: the pieces between occurrences of sep, empty pieces
      included; the empty string splits into one empty piece. */
  function Split(s: string, sep: char): (r: seq<string>)
    ensures |r| >= 1
    ensures forall i :: 0 <= i < |r| ==> sep !in r[i]
    decreases |s|
  {
    if s == [] then [""]
    else
      var rest := Split(s[1..], sep);
      if s[0] == sep then [""] + rest
      else [[s[0]] + rest[0]] + rest[1..]
  }

  /** `parts.join(sep)`. */
  function Join(parts: seq<string>, sep: char): string
    requires |parts| >= 1
    decreases |parts|
  {
    if |parts| == 1 then parts[0] else parts[0] + [sep] + Join(parts[1..], sep)
  }

  /** Splitting loses nothing: joining the pieces back gives the string. */
  lemma {:induction false} JoinSplit(s: string, sep: char)
    ensures Join(Split(s, sep), sep) == s
    decreases |s|
  {
    if s != [] {
      var rest := Split(s[1..], sep);
      JoinSplit(s[1..], sep);
      assert s == [s[0]] + s[1..];
      if s[0] != sep {
        var parts := Split(s, sep);
        assert parts[0] == [s[0]] + rest[0];
        assert parts[1..] == rest[1..];
        if |rest| > 1 {
          assert Join(rest, sep) == rest[0] + [sep] + Join(rest[1..], sep);
        }
      }
    }
  }

  /** A leading field free of the separator splits off as the first piece. */
  lemma {:induction false} SplitFirst(a: string, sep: char, b: string)
    requires sep !in a
    ensures Split(a + [sep] + b, sep) == [a] + Split(b, sep)
    decreases |a|
  {
    var s := a + [sep] + b;
    if a == [] {
      assert s[1..] == b;
    } else {
      assert s[1..] == a[1..] + [sep] + b;
      SplitFirst(a[1..], sep, b);
      assert [a[0]] + a[1..] == a;
    }
  }

  /** A string free of the separator is one piece. */
  lemma {:induction false} SplitNone(a: string, sep: char)
    requires sep !in a
    ensures Split(a, sep) == [a]
    decreases |a|
  {
    if a != [] {
      SplitNone(a[1..], sep);
      assert [a[0]] + a[1..] == a;
    }
  }
}

=== FILE: user_repository.dfy ===
/** The user repository: lookups of one user, the privacy flag, the profile
    picture key, and the two user listings (recommendations and search by
    username). */
module UserRepository {
  import opened Common
  import opened Strings
  import opened Collections
  import opened Store
  import opened Pagination

  /** `getById(userId)`: the public fields of the user, or null. */
  function GetById(users: seq<User>, userId: Id): (r: Option<UserView>)
    ensures r.None? <==> !HasUser(users, userId)
    ensures r.Some? ==> r.value.id == userId && exists u :: u in users && r.value == ViewOf(u)
  {
    match FindUser(users, userId)
    case None => None
    case Some(u) => Some(ViewOf(u))
  }

  /** `isPrivateUser(userId)`: the user's flag, false when there is no such user. */
  function IsPrivateUser(users: seq<User>, userId: Id): (r: bool)
    ensures !HasUser(users, userId) ==> !r
    ensures UserIdsUnique(users) ==>
              forall k :: 0 <= k < |users| && users[k].id == userId ==> (r <==> users[k].isPrivate)
  {
    match FindUser(users, userId)
    case None => false
    case Some(u) =>
      assert UserIdsUnique(users) ==>
               forall k :: 0 <= k < |users| && users[k].id == userId ==> users[k] == u;
      u.isPrivate
  }

  // ---------------------------------------------------------------- updates

  /** The user table with the row of userId given the privacy flag b. */
  function SetPrivate(users: seq<User>, userId: Id, b: bool): (r: seq<User>)
    ensures |r| == |users|
    // only the flag of the rows with that id changes
    ensures forall k :: 0 <= k < |r| ==> r[k].(isPrivate := users[k].isPrivate) == users[k]
    ensures forall k :: 0 <= k < |r| ==> if users[k].id == userId then r[k].isPrivate == b else r[k] == users[k]
  {
    seq(|users|, k requires 0 <= k < |users| => if users[k].id == userId then users[k].(isPrivate := b) else users[k])
  }

  /** The user table with the row of userId given the profile picture key. */
  function SetProfilePicture(users: seq<User>, userId: Id, key: string): (r: seq<User>)
    ensures |r| == |users|
    // only the picture of the rows with that id changes
    ensures forall k :: 0 <= k < |r| ==> r[k].(profilePicture := users[k].profilePicture) == users[k]
    ensures forall k :: 0 <= k < |r| ==> if users[k].id == userId then r[k].profilePicture == Some(key) else r[k] == users[k]
  {
    seq(|users|, k requires 0 <= k < |users| => if users[k].id == userId then users[k].(profilePicture := Some(key)) else users[k])
  }

  /** Rewriting rows without touching their ids keeps the store's constraints. */
  lemma SameIdsKeepValid(users: seq<User>, users': seq<User>, posts: seq<Post>)
    requires |users'| == |users| && forall k :: 0 <= k < |users| ==> users'[k].id == users[k].id
    requires UserIdsUnique(users) && AuthorsExist(users, posts)
    ensures UserIdsUnique(users') && AuthorsExist(users', posts)
  {
    forall i | 0 <= i < |posts|
      ensures HasUser(users', posts[i].authorId)
    {
      var k :| 0 <= k < |users| && users[k].id == posts[i].authorId;
      assert users'[k].id == posts[i].authorId;
    }
  }

  /** After the update the user's flag reads b, and every other user's flag
      reads as before. */
  lemma IsPrivateAfterSet(users: seq<User>, userId: Id, b: bool, other: Id)
    requires UserIdsUnique(users) && HasUser(users, userId)
    ensures IsPrivateUser(SetPrivate(users, userId, b), userId) == b
    ensures other != userId ==> IsPrivateUser(SetPrivate(users, userId, b), other) == IsPrivateUser(users, other)
  {
    var r := SetPrivate(users, userId, b);
    SameIdsKeepValid(users, r, []);
    var k :| 0 <= k < |users| && users[k].id == userId;
    assert r[k].isPrivate == b;
    if other != userId && HasUser(users, other) {
      var j :| 0 <= j < |users| && users[j].id == other;
      assert r[j] == users[j];
    }
  }

  /** Setting the flag twice is setting it once. */
  lemma SetPrivateIdempotent(users: seq<User>, userId: Id, b: bool)
    ensures SetPrivate(SetPrivate(users, userId, b), userId, b) == SetPrivate(users, userId, b)
  {
  }

  /** `privateUser(userId)`: sets the flag; the database refuses an unknown id. */
  method PrivateUser(db: Database, userId: Id) returns (r: Outcome)
    requires db.Valid()
    modifies db`users
    ensures db.Valid()
    ensures r.Fail? <==> !HasUser(old(db.users), userId)
    ensures r.Fail? ==> r.error == RecordNotFound && db.users == old(db.users)
    ensures r.Pass? ==> db.users == SetPrivate(old(db.users), userId, true)
  {
    if !HasUser(db.users, userId) {
      return Fail(RecordNotFound);
    }
    SameIdsKeepValid(db.users, SetPrivate(db.users, userId, true), db.posts);
    db.users := SetPrivate(db.users, userId, true);
    r := Pass;
  }

  /** `unprivateUser(userId)`: clears the flag; the database refuses an unknown id. */
  method UnprivateUser(db: Database, userId: Id) returns (r: Outcome)
    requires db.Valid()
    modifies db`users
    ensures db.Valid()
    ensures r.Fail? <==> !HasUser(old(db.users), userId)
    ensures r.Fail? ==> r.error == RecordNotFound && db.users == old(db.users)
    ensures r.Pass? ==> db.users == SetPrivate(old(db.users), userId, false)
  {
    if !HasUser(db.users, userId) {
      return Fail(RecordNotFound);
    }
    SameIdsKeepValid(db.users, SetPrivate(db.users, userId, false), db.posts);
    db.users := SetPrivate(db.users, userId, false);
    r := Pass;
  }

  /** `profile/<userId>.<extension>`. */
  function ProfileKey(userId: Id, extension: string): (k: string)
    ensures StartsWith(k, "profile/" + userId + ".")
    ensures EndsWith(k, extension)
  {
    var folder := "profile/" + userId + ".";
    var k := folder + extension;
    assert k[..|folder|] == folder;
    assert k[|k| - |extension|..] == extension;
    k
  }

  /** For one user, the key tells the extension back. */
  lemma ProfileKeyInjective(userId: Id, e1: string, e2: string)
    requires ProfileKey(userId, e1) == ProfileKey(userId, e2)
    ensures e1 == e2
  {
    var folder := "profile/" + userId + ".";
    assert e1 == ProfileKey(userId, e1)[|folder|..];
    assert e2 == ProfileKey(userId, e2)[|folder|..];
  }

  /** `updateProfilePicture(userId, extension)`: stores the key and returns
      it; the database refuses an unknown id. */
  method UpdateProfilePicture(db: Database, userId: Id, extension: string) returns (r: Result<string>)
    requires db.Valid()
    modifies db`users
    ensures db.Valid()
    ensures r.Err? <==> !HasUser(old(db.users), userId)
    ensures r.Err? ==> r.error == RecordNotFound && db.users == old(db.users)
    ensures r.Ok? ==> r.value == ProfileKey(userId, extension)
    ensures r.Ok? ==> db.users == SetProfilePicture(old(db.users), userId, r.value)
  {
    if !HasUser(db.users, userId) {
      return Err(RecordNotFound);
    }
    var key := ProfileKey(userId, extension);
    SameIdsKeepValid(db.users, SetProfilePicture(db.users, userId, key), db.posts);
    db.users := SetProfilePicture(db.users, userId, key);
    r := Ok(key);
  }

  /** After the update, looking the user up gives the stored key as picture. */
  lemma StoredPictureIsKey(users: seq<User>, userId: Id, key: string)
    requires UserIdsUnique(users) && HasUser(users, userId)
    ensures var v := GetById(SetProfilePicture(users, userId, key), userId);
            v.Some? && v.value.profilePicture == Some(key)
  {
    var r := SetProfilePicture(users, userId, key);
    var k :| 0 <= k < |users| && users[k].id == userId;
    assert r[k].id == userId;
    var u := FindUser(r, userId).value;
    var j :| 0 <= j < |r| && r[j] == u;
    SameIdsKeepValid(users, r, []);
    assert j == k;
  }

  // ---------------------------------------------------------------- listings

  /** Some user that userId follows follows v (a follower row of v whose
      follower is one of the users userId follows). */
  predicate Recommended(users: seq<User>, follows: set<Follow>, userId: Id, v: User) {
    exists u :: u in users && Follow(userId, u.id) in follows && Follow(u.id, v.id) in follows
  }

  /** `orderBy: [{ id: 'asc' }]`. */
  predicate IdAscending(x: User, y: User) {
    IdLe(x.id, y.id)
  }

  lemma IdAscendingIsTotal(s: seq<User>)
    ensures TotalPreorderOn(s, IdAscending)
  {
    forall x, y | x in s && y in s
      ensures IdAscending(x, y) || IdAscending(y, x)
    {
      IdLeTotal(x.id, y.id);
    }
    forall x, y, z | x in s && y in s && z in s && IdAscending(x, y) && IdAscending(y, z)
      ensures IdAscending(x, z)
    {
      IdLeTransitive(x.id, y.id, z.id);
    }
  }

  /** The users recommended to userId, by id. */
  function RecommendedUsers(users: seq<User>, follows: set<Follow>, userId: Id): (r: seq<User>)
    ensures SortedBy(r, IdAscending)
    ensures forall v :: multiset(r)[v] == if Recommended(users, follows, userId, v) then multiset(users)[v] else 0
  {
    var keep := (v: User) => Recommended(users, follows, userId, v);
    var selected := Filter(users, keep);
    forall v | true
      ensures multiset(SortBy(selected, IdAscending))[v] == if keep(v) then multiset(users)[v] else 0
    {
      FilterMultiset(users, keep, v);
    }
    IdAscendingIsTotal(selected);
    SortBySorted(selected, IdAscending);
    SortBy(selected, IdAscending)
  }

  /** The public fields of each row, in order. */
  function Views(users: seq<User>): (r: seq<UserView>)
    ensures |r| == |users|
    ensures forall i :: 0 <= i < |r| ==> r[i] == ViewOf(users[i])
  {
    seq(|users|, i requires 0 <= i < |users| => ViewOf(users[i]))
  }

  /** What a paginated listing asks of the database, and the rows the page is cut from. */
  datatype OffsetPage = OffsetPage(args: OffsetArgs, rows: seq<UserView>)

  datatype CursorPage = CursorPage(args: CursorArgs, rows: seq<UserView>)

  /** A user is listed exactly when it is stored and recommended. */
  lemma RecommendedMembership(users: seq<User>, follows: set<Follow>, userId: Id, v: User)
    ensures v in RecommendedUsers(users, follows, userId) <==> v in users && Recommended(users, follows, userId, v)
  {
    var selected := RecommendedUsers(users, follows, userId);
    assert v in selected <==> multiset(selected)[v] > 0;
    assert v in users <==> multiset(users)[v] > 0;
  }

  lemma RecommendedViewsSorted(users: seq<User>, follows: set<Follow>, userId: Id)
    ensures var rows := Views(RecommendedUsers(users, follows, userId));
            forall i, j :: 0 <= i < j < |rows| ==> IdLe(rows[i].id, rows[j].id)
  {
    var selected := RecommendedUsers(users, follows, userId);
    var rows := Views(selected);
    forall i, j | 0 <= i < j < |rows| ensures IdLe(rows[i].id, rows[j].id) {
      assert IdAscending(selected[i], selected[j]);
    }
  }

  lemma RecommendedViewsComplete(users: seq<User>, follows: set<Follow>, userId: Id, v: User)
    requires v in users && Recommended(users, follows, userId, v)
    ensures ViewOf(v) in Views(RecommendedUsers(users, follows, userId))
  {
    var selected := RecommendedUsers(users, follows, userId);
    RecommendedMembership(users, follows, userId, v);
    var k :| 0 <= k < |selected| && selected[k] == v;
    assert Views(selected)[k] == ViewOf(v);
  }

  lemma RecommendedViewsSound(users: seq<User>, follows: set<Follow>, userId: Id, i: nat)
    requires i < |Views(RecommendedUsers(users, follows, userId))|
    ensures var rows := Views(RecommendedUsers(users, follows, userId));
            exists v :: v in users && Recommended(users, follows, userId, v) && rows[i] == ViewOf(v)
  {
    var selected := RecommendedUsers(users, follows, userId);
    var v := selected[i];
    RecommendedMembership(users, follows, userId, v);
    assert Views(selected)[i] == ViewOf(v);
  }

  /** The rows of the recommendation listing are exactly the recommended
      users, by id ascending. */
  lemma RecommendedViews(users: seq<User>, follows: set<Follow>, userId: Id)
    ensures var rows := Views(RecommendedUsers(users, follows, userId));
            && (forall i, j :: 0 <= i < j < |rows| ==> IdLe(rows[i].id, rows[j].id))
            && (forall v :: v in users && Recommended(users, follows, userId, v) ==> ViewOf(v) in rows)
            && (forall i :: 0 <= i < |rows| ==>
                  exists v :: v in users && Recommended(users, follows, userId, v) && rows[i] == ViewOf(v))
  {
    var rows := Views(RecommendedUsers(users, follows, userId));
    RecommendedViewsSorted(users, follows, userId);
    forall v | v in users && Recommended(users, follows, userId, v)
      ensures ViewOf(v) in rows
    {
      RecommendedViewsComplete(users, follows, userId, v);
    }
    forall i | 0 <= i < |rows|
      ensures exists v :: v in users && Recommended(users, follows, userId, v) && rows[i] == ViewOf(v)
    {
      RecommendedViewsSound(users, follows, userId, i);
    }
  }

  /** `getRecommendedUsersPaginated(userId, options)`: the users followed by
      someone userId follows, by id ascending; the user itself and users it
      already follows are not excluded. */
  function GetRecommendedUsersPaginated(users: seq<User>, follows: set<Follow>, userId: Id, options: OffsetPagination): (r: OffsetPage)
    ensures r.args == FindManyOffsetArgs(options)
    ensures forall i, j :: 0 <= i < j < |r.rows| ==> IdLe(r.rows[i].id, r.rows[j].id)
    ensures forall v :: v in users && Recommended(users, follows, userId, v) ==> ViewOf(v) in r.rows
    ensures forall i :: 0 <= i < |r.rows| ==>
              exists v :: v in users && Recommended(users, follows, userId, v) && r.rows[i] == ViewOf(v)
  {
    RecommendedViews(users, follows, userId);
    OffsetPage(FindManyOffsetArgs(options), Views(RecommendedUsers(users, follows, userId)))
  }

  /** Users whose username contains q. */
  function UsernameHas(q: string): User -> bool {
    (v: User) => Contains(v.username, q)
  }

  /** The users whose username contains q, in table order. */
  function UsernameMatches(users: seq<User>, q: string): (r: seq<User>)
    ensures forall v :: v in r <==> v in users && Contains(v.username, q)
  {
    var keep := UsernameHas(q);
    forall v ensures v in Filter(users, keep) <==> v in users && keep(v) {
      FilterMembership(users, keep, v);
    }
    Filter(users, keep)
  }

  /** With unique user ids the matching users have unique ids too. */
  lemma UsernameMatchesKeepsIdsUnique(users: seq<User>, q: string)
    ensures UserIdsUnique(users) ==> UserIdsUnique(UsernameMatches(users, q))
  {
    if UserIdsUnique(users) {
      var id := (u: User) => u.id;
      assert KeysUnique(users, id);
      FilterKeepsKeysUnique(users, UsernameHas(q), id);
      assert KeysUnique(UsernameMatches(users, q), id);
    }
  }

  /** `getByUsernamePaginated(username, options)`: the users whose username
      contains the query, case-sensitively, with the feed's cursor arguments. */
  function GetByUsernamePaginated(users: seq<User>, username: string, options: CursorPagination): (r: CursorPage)
    ensures r.args == FindManyCursorArgs(options)
    ensures forall i :: 0 <= i < |r.rows| ==> Contains(r.rows[i].username, username)
    ensures forall v :: v in users && Contains(v.username, username) ==> ViewOf(v) in r.rows
    ensures forall i :: 0 <= i < |r.rows| ==>
              exists v :: v in users && Contains(v.username, username) && r.rows[i] == ViewOf(v)
    ensures UserIdsUnique(users) ==> forall i, j :: 0 <= i < j < |r.rows| ==> r.rows[i].id != r.rows[j].id
  {
    var selected := UsernameMatches(users, username);
    var rows := Views(selected);
    forall i | 0 <= i < |rows|
      ensures Contains(rows[i].username, username)
      ensures exists v :: v in users && Contains(v.username, username) && rows[i] == ViewOf(v)
    {
      var v := selected[i];
      assert v in selected;
      assert rows[i] == ViewOf(v);
    }
    UsernameMatchesKeepsIdsUnique(users, username);
    forall i, j | 0 <= i < j < |rows| && UserIdsUnique(users)
      ensures rows[i].id != rows[j].id
    {
      assert rows[i].id == selected[i].id && rows[j].id == selected[j].id;
    }
    forall v | v in users && Contains(v.username, username)
      ensures ViewOf(v) in rows
    {
      var k :| 0 <= k < |selected| && selected[k] == v;
      assert rows[k] == ViewOf(v);
    }
    var r := CursorPage(FindManyCursorArgs(options), rows);
    assert r.rows == rows;
    r
  }
}

=== FILE: user_service.dfy ===
/** The user service: profile views with their pictures resolved to signed
    URLs, follow flags between two users, recommendations without the
    requesting user, search by username, the privacy switch and the profile
    picture upload. */
module UserService {
  import opened Common
  import opened Collections
  import opened Store
  import opened Pagination
  import opened Bucket
  import opened Strings
  import UserRepository
  import FollowRepository

  /** The logged user's own view and the ids it follows. */
  datatype LoggedUserView = LoggedUserView(user: UserView, following: seq<Id>)

  /** Another user's view, with the follow flags between the two. */
  datatype ExtendedUserView = ExtendedUserView(user: UserView, followsYou: bool, following: bool)

  /** `getLoggedUser(userId)`. A non-empty picture key is replaced by its URL;
      any other value (null, or the empty string) is returned as stored.
      `following` is the list the follow repository would give for the user. */
  method GetLoggedUser(db: Database, bucket: BucketManager, userId: Id, following: seq<Id>) returns (r: Result<LoggedUserView>)
    modifies bucket`gets
    ensures r.Err? <==> !HasUser(db.users, userId)
    ensures r.Err? ==> r.error == NotFound("user") && bucket.gets == old(bucket.gets)
    ensures r.Ok? ==>
              var v := UserRepository.GetById(db.users, userId).value;
              && r.value.user.(profilePicture := v.profilePicture) == v
              && r.value.user.profilePicture == (if Truthy(v.profilePicture) then Resolved(bucket.signGet, v.profilePicture) else v.profilePicture)
              && r.value.following == following
              && bucket.gets == old(bucket.gets) + PictureKeys(v.profilePicture)
  {
    var user := UserRepository.GetById(db.users, userId);
    if user.None? {
      return Err(NotFound("user"));
    }
    var v := user.value;
    if Truthy(v.profilePicture) {
      var url := bucket.GetImage(v.profilePicture.value);
      v := v.(profilePicture := Some(url));
    }
    r := Ok(LoggedUserView(v, following));
  }

  /** `getUser(loggedUserId, otherUserId)`: the other user's view with its
      picture resolved (an empty key becomes null), whether the other user
      follows the logged one, and whether the logged user follows the other. */
  method GetUser(db: Database, bucket: BucketManager, loggedUserId: Id, otherUserId: Id) returns (r: Result<ExtendedUserView>)
    modifies bucket`gets
    ensures r.Err? <==> !HasUser(db.users, otherUserId)
    ensures r.Err? ==> r.error == NotFound("user") && bucket.gets == old(bucket.gets)
    ensures r.Ok? ==>
              var v := UserRepository.GetById(db.users, otherUserId).value;
              && r.value.user == v.(profilePicture := Resolved(bucket.signGet, v.profilePicture))
              && (r.value.followsYou <==> Follow(otherUserId, loggedUserId) in db.follows)
              && (r.value.following <==> Follow(loggedUserId, otherUserId) in db.follows)
              && bucket.gets == old(bucket.gets) + PictureKeys(v.profilePicture)
  {
    var user := UserRepository.GetById(db.users, otherUserId);
    if user.None? {
      return Err(NotFound("user"));
    }
    var pic := ResolvePicture(bucket, user.value.profilePicture);
    var followsYou := FollowRepository.CheckFollow(db.follows, otherUserId, loggedUserId);
    var following := FollowRepository.CheckFollow(db.follows, loggedUserId, otherUserId);
    r := Ok(ExtendedUserView(user.value.(profilePicture := pic), followsYou, following));
  }

  /** Viewing another user tells the two follow directions apart: a one-way
      follow shows as `following` and not as `followsYou`. */
  method ViewFollowedUser(db: Database, bucket: BucketManager, loggedUserId: Id, otherUserId: Id) returns (r: Result<ExtendedUserView>)
    requires HasUser(db.users, otherUserId)
    requires Follow(loggedUserId, otherUserId) in db.follows && Follow(otherUserId, loggedUserId) !in db.follows
    modifies bucket`gets
    ensures r.Ok? && r.value.following && !r.value.followsYou
  {
    r := GetUser(db, bucket, loggedUserId, otherUserId);
  }

  // ---------------------------------------------------------------- listings

  /** Each view with its picture resolved, in order. */
  function ResolvedViews(sign: string -> string, vs: seq<UserView>): seq<UserView> {
    seq(|vs|, i requires 0 <= i < |vs| => vs[i].(profilePicture := Resolved(sign, vs[i].profilePicture)))
  }

  /** The keys signed while resolving the list, in list order. */
  function AllPictureKeys(vs: seq<UserView>): seq<string>
    decreases |vs|
  {
    if vs == [] then [] else AllPictureKeys(vs[..|vs| - 1]) + PictureKeys(vs[|vs| - 1].profilePicture)
  }

  predicate HasPicture(v: UserView) {
    Truthy(v.profilePicture)
  }

  /** A listing signs one URL per user with a non-empty picture key. */
  lemma {:induction false} AllPictureKeysCount(vs: seq<UserView>)
    ensures |AllPictureKeys(vs)| == |Filter(vs, HasPicture)|
    decreases |vs|
  {
    if vs != [] {
      var init := vs[..|vs| - 1];
      AllPictureKeysCount(init);
      assert vs == init + [vs[|vs| - 1]];
      FilterAppend(init, vs[|vs| - 1], HasPicture);
    }
  }

  /** The loop `for (const user of users) user.profilePicture = ...`, which
      rewrites each user's picture in place. */
  method ResolveUsers(bucket: BucketManager, users: seq<UserView>) returns (r: seq<UserView>)
    modifies bucket`gets
    ensures r == ResolvedViews(bucket.signGet, users)
    ensures bucket.gets == old(bucket.gets) + AllPictureKeys(users)
  {
    r := users;
    var i := 0;
    while i < |r|
      invariant 0 <= i <= |r| == |users|
      invariant forall k :: 0 <= k < i ==> r[k] == users[k].(profilePicture := Resolved(bucket.signGet, users[k].profilePicture))
      invariant forall k :: i <= k < |r| ==> r[k] == users[k]
      invariant bucket.gets == old(bucket.gets) + AllPictureKeys(users[..i])
    {
      var pic := ResolvePicture(bucket, r[i].profilePicture);
      assert users[..i + 1][..i] == users[..i];
      r := r[i := r[i].(profilePicture := pic)];
      i := i + 1;
    }
    assert users[..i] == users;
  }

  /** Views of users other than userId. */
  function OtherThan(userId: Id): UserView -> bool {
    (v: UserView) => v.id != userId
  }

  /** The views other than the one with userId, in order. */
  function WithoutSelf(vs: seq<UserView>, userId: Id): (r: seq<UserView>)
    ensures forall i :: 0 <= i < |r| ==> r[i].id != userId
    ensures forall v :: v in r <==> v in vs && v.id != userId
  {
    var keep := OtherThan(userId);
    forall v ensures v in Filter(vs, keep) <==> v in vs && keep(v) {
      FilterMembership(vs, keep, v);
    }
    Filter(vs, keep)
  }

  /** Dropping the user from a listing laid end to end is dropping it from
      each part: the views that remain keep their order. */
  lemma WithoutSelfConcat(a: seq<UserView>, b: seq<UserView>, userId: Id)
    ensures WithoutSelf(a + b, userId) == WithoutSelf(a, userId) + WithoutSelf(b, userId)
  {
    FilterConcat(a, b, OtherThan(userId));
  }

  /** A single view is kept exactly when it is not the user's. */
  lemma WithoutSelfOne(v: UserView, userId: Id)
    ensures WithoutSelf([v], userId) == if v.id != userId then [v] else []
  {
    FilterSingleton(v, OtherThan(userId));
  }

  /** Without a row of the requesting user the listing comes back whole, in order. */
  lemma {:induction false} WithoutSelfKeepsOthers(vs: seq<UserView>, userId: Id)
    requires forall i :: 0 <= i < |vs| ==> vs[i].id != userId
    ensures WithoutSelf(vs, userId) == vs
    decreases |vs|
  {
    if vs != [] {
      WithoutSelfKeepsOthers(vs[1..], userId);
      assert vs == [vs[0]] + vs[1..];
    }
  }

  /** `getUserRecommendations(userId, options)`: the repository's listing
      with pictures resolved, then without the requesting user. Its own
      picture, when it is listed, is still signed before it is dropped. */
  method GetUserRecommendations(db: Database, bucket: BucketManager, userId: Id, options: OffsetPagination) returns (r: seq<UserView>)
    modifies bucket`gets
    ensures var page := UserRepository.GetRecommendedUsersPaginated(db.users, db.follows, userId, options);
            && r == WithoutSelf(ResolvedViews(bucket.signGet, page.rows), userId)
            && bucket.gets == old(bucket.gets) + AllPictureKeys(page.rows)
    ensures forall i :: 0 <= i < |r| ==> r[i].id != userId
  {
    var page := UserRepository.GetRecommendedUsersPaginated(db.users, db.follows, userId, options);
    var users := ResolveUsers(bucket, page.rows);
    r := WithoutSelf(users, userId);
  }

  /** `getUsersByUsername(username, options)`: the repository's listing with
      pictures resolved, in the same order. */
  method GetUsersByUsername(db: Database, bucket: BucketManager, username: string, options: CursorPagination) returns (r: seq<UserView>)
    modifies bucket`gets
    ensures var page := UserRepository.GetByUsernamePaginated(db.users, username, options);
            && r == ResolvedViews(bucket.signGet, page.rows)
            && bucket.gets == old(bucket.gets) + AllPictureKeys(page.rows)
    ensures forall i :: 0 <= i < |r| ==>
              exists v :: v in db.users && Contains(v.username, username)
                          && r[i] == ViewOf(v).(profilePicture := Resolved(bucket.signGet, v.profilePicture))
  {
    var page := UserRepository.GetByUsernamePaginated(db.users, username, options);
    r := ResolveUsers(bucket, page.rows);
    forall i | 0 <= i < |r|
      ensures exists v :: v in db.users && Contains(v.username, username)
                          && r[i] == ViewOf(v).(profilePicture := Resolved(bucket.signGet, v.profilePicture))
    {
      var v :| v in db.users && Contains(v.username, username) && page.rows[i] == ViewOf(v);
      assert r[i] == page.rows[i].(profilePicture := Resolved(bucket.signGet, page.rows[i].profilePicture));
    }
  }

  // ---------------------------------------------------------------- updates

  /** `privateUser(userId)`, passed to the repository. */
  method PrivateUser(db: Database, userId: Id) returns (r: Outcome)
    requires db.Valid()
    modifies db`users
    ensures db.Valid()
    ensures r.Fail? <==> !HasUser(old(db.users), userId)
    ensures r.Fail? ==> r.error == RecordNotFound && db.users == old(db.users)
    ensures r.Pass? ==> db.users == UserRepository.SetPrivate(old(db.users), userId, true)
  {
    r := UserRepository.PrivateUser(db, userId);
  }

  /** `unprivateUser(userId)`, passed to the repository. */
  method UnprivateUser(db: Database, userId: Id) returns (r: Outcome)
    requires db.Valid()
    modifies db`users
    ensures db.Valid()
    ensures r.Fail? <==> !HasUser(old(db.users), userId)
    ensures r.Fail? ==> r.error == RecordNotFound && db.users == old(db.users)
    ensures r.Pass? ==> db.users == UserRepository.SetPrivate(old(db.users), userId, false)
  {
    r := UserRepository.UnprivateUser(db, userId);
  }

  /** `updateProfilePicture(userId, extension)`: stores the key
      `profile/<userId>.<extension>` and returns the upload URL of that same key. */
  method UpdateProfilePicture(db: Database, bucket: BucketManager, userId: Id, extension: string) returns (r: Result<string>)
    requires db.Valid()
    modifies db`users, bucket`puts
    ensures db.Valid()
    ensures r.Err? <==> !HasUser(old(db.users), userId)
    ensures r.Err? ==> r.error == RecordNotFound && db.users == old(db.users) && bucket.puts == old(bucket.puts)
    ensures r.Ok? ==>
              var key := UserRepository.ProfileKey(userId, extension);
              && r.value == bucket.signPut(key)
              && db.users == UserRepository.SetProfilePicture(old(db.users), userId, key)
              && bucket.puts == old(bucket.puts) + [key]
  {
    var stored := UserRepository.UpdateProfilePicture(db, userId, extension);
    if stored.Err? {
      return Err(stored.error);
    }
    var url := bucket.PutImage(stored.value);
    r := Ok(url);
  }
}

=== FILE: validation.dfy ===
/** The image-extension check run on request bodies that carry `images`:
    every name must end in `.jpg`, `.jpeg` or `.png`, in any letter case. */
module Validation {
  import opened Common
  import opened Strings

  /** The extensions the pattern `\.(jpg|jpeg|png)$` lists. */
  predicate IsAllowedExtension(e: string) {
    e == "jpg" || e == "jpeg" || e == "png"
  }

  /** The pattern `/\.(jpg|jpeg|png)$/i` matches the name. */
  predicate ExtensionAllowed(name: string) {
    EndsWith(Lower(name), ".jpg") || EndsWith(Lower(name), ".jpeg") || EndsWith(Lower(name), ".png")
  }

  /** Position i of the name holds a dot followed, up to the end of the name,
      by an allowed extension in any letter case. */
  predicate DotExtensionAt(name: string, i: int) {
    0 <= i < |name| && name[i] == '.' && IsAllowedExtension(Lower(name[i + 1..]))
  }

  /** The lower-cased name ends with a dot and e exactly when the name has a
      dot at that position followed by e in any letter case. */
  lemma LowerEndsWithDot(name: string, e: string)
    requires |e| < |name|
    ensures EndsWith(Lower(name), "." + e) <==>
            name[|name| - |e| - 1] == '.' && Lower(name[|name| - |e|..]) == e
  {
    var i := |name| - |e| - 1;
    var low := Lower(name);
    LowerSlice(name, i + 1, |name|);
    assert name[i + 1..] == name[i + 1..|name|];
    assert low[i..] == [low[i]] + low[i + 1..];
  }

  lemma AllowedSuffixHasDot(name: string, e: string)
    requires IsAllowedExtension(e) && EndsWith(Lower(name), "." + e)
    ensures DotExtensionAt(name, |name| - |e| - 1)
  {
    LowerEndsWithDot(name, e);
  }

  lemma DotExtensionIsAllowed(name: string, i: int)
    requires DotExtensionAt(name, i)
    ensures ExtensionAllowed(name)
  {
    var e := Lower(name[i + 1..]);
    assert name[|name| - |e|..] == name[i + 1..];
    LowerEndsWithDot(name, e);
    assert EndsWith(Lower(name), "." + e);
    if e == "jpg" {
      assert "." + e == ".jpg";
    } else if e == "jpeg" {
      assert "." + e == ".jpeg";
    } else {
      assert "." + e == ".png";
    }
  }

  lemma AllowedHasDotExtension(name: string)
    requires ExtensionAllowed(name)
    ensures exists i :: DotExtensionAt(name, i)
  {
    var e := if EndsWith(Lower(name), ".jpg") then "jpg"
             else if EndsWith(Lower(name), ".jpeg") then "jpeg"
             else "png";
    assert "." + e == if e == "jpg" then ".jpg" else if e == "jpeg" then ".jpeg" else ".png";
    AllowedSuffixHasDot(name, e);
    var i := |name| - |e| - 1;
    assert DotExtensionAt(name, i);
  }

  /** The check reads as the pattern does: some dot in the name is followed,
      up to the end of the name, by an allowed extension in any letter case. */
  lemma ExtensionAllowedMeansDotExtension(name: string)
    ensures ExtensionAllowed(name) <==> exists i :: DotExtensionAt(name, i)
  {
    if ExtensionAllowed(name) {
      AllowedHasDotExtension(name);
    }
    forall i | DotExtensionAt(name, i)
      ensures ExtensionAllowed(name)
    {
      DotExtensionIsAllowed(name, i);
    }
  }

  /** Names the check refuses and accepts. */
  lemma ExtensionExamples()
    ensures !ExtensionAllowed("x.png.exe")
    ensures !ExtensionAllowed("png")
    ensures ExtensionAllowed("photo.PNG") && ExtensionAllowed("a.JpEg")
  {
    assert Lower("x.png.exe")[5..] == ".exe";
    assert Lower("x.png.exe")[4..] == "g.exe";
    assert Lower("x.png.exe")[6..] == "exe";
    assert Lower("photo.PNG")[5..] == ".png";
    assert Lower("a.JpEg")[1..] == ".jpeg";
  }

  /** Every name in the list passes. */
  predicate AllAllowed(names: seq<string>) {
    forall i :: 0 <= i < |names| ==> ExtensionAllowed(names[i])
  }

  /** `imagesExtensionValidation()`: Pass means `next()` is reached; the
      first bad name raises the validation error on property `images`. */
  function ImagesExtensionValidation(images: Option<seq<string>>): (r: Outcome)
    ensures r.Pass? <==> images.None? || AllAllowed(images.value)
    ensures r.Fail? ==> r.error == Validation("File extension not allowed", "images")
  {
    if images.None? then Pass else CheckEach(images.value)
  }

  /** `images.forEach(...)`, which throws at the first refused name. */
  function CheckEach(names: seq<string>): (r: Outcome)
    ensures r.Pass? <==> AllAllowed(names)
    ensures r.Fail? ==> r.error == Validation("File extension not allowed", "images")
    decreases |names|
  {
    if names == [] then Pass
    else if !ExtensionAllowed(names[0]) then Fail(Validation("File extension not allowed", "images"))
    else
      var rest := CheckEach(names[1..]);
      assert AllAllowed(names) <==> AllAllowed(names[1..]) by {
        assert forall i :: 1 <= i < |names| ==> names[i] == names[1..][i - 1];
      }
      rest
  }

  /** One refused name anywhere refuses the whole list. */
  lemma OneBadNameRefuses(names: seq<string>, k: nat)
    requires k < |names| && !ExtensionAllowed(names[k])
    ensures ImagesExtensionValidation(Some(names)) == Fail(Validation("File extension not allowed", "images"))
  {
  }
}
